=== FILE: README.md ===
# Page analyzer: a Dafny model

The page analyzer is a small Javalin web application. A user submits a web address. The application:
- reduces the address to a canonical name;
- stores it once in a `urls` table;
- on request, "checks" it: it fetches the page and records the response status, the page title, the first `h1` heading and the `meta name="description"` content as a row of `url_checks`;
- moves one-shot flash messages from the session into the next request.

This project models that logic in Dafny 4.11 as pure functions over immutable data:

| module | models |
|---|---|
| `Common` (common.dfy) | optional values, flash messages, the two session slots, Java `int` wrap-around, ASCII lower-casing, decimal numerals |
| `Sorting` (sorting.dfy) | `ORDER BY key DESC`, as an insertion sort |
| `UrlPolicy` (url_policy.dfy) | both naming rules for an address: `UrlController.normalizeUrl` with its bare-domain pattern, and the `protocol://authority` key of `App` |
| `UrlRepository` (url_repository.dfy) | the `urls` table: its rows in insertion order, the next identity value, and an explicit clock |
| `UrlCheckRepository` (url_check_repository.dfy) | the `url_checks` table, the same way |
| `PageAnalysis` (page_analysis.dfy) | how the title, heading and description are read from a parsed document |
| `UrlController` (url_controller.dfy) | `createUrl`, `showUrls` and `showUrlById` |
| `UrlCheckController` (url_check_controller.dfy) | `addCheck` |
| `App` (app.dfy) | the `before` flash hook, the inline POST `/urls` handler and GET `/urls/{id}` |

Handlers return their effect instead of writing to a request context: the new table, the flash they set, and where they redirect. Some things are parameters:
- the address parser (`java.net.URI`/`URL`) is a function `string -> Option<ParsedUrl>`;
- the HTTP client is a function from an address to a response or a failure;
- the clock is a natural number `now`.

Three behaviours of the code are easy to misread; the model follows the code:
- `createUrl` prepends `http://` to any input matching `[a-zA-Z0-9.-]+\.[a-zA-Z]{2,}.*`, not only to strict domain names.
- The "latest check" of a url is the one with the greatest id, not the latest `created_at`. `LatestIsNewest` shows the two agree when the clock never runs backwards.
- `UrlRepository.save` does not report the generated id back (see Findings). The handlers call it as written; they never read the id, so the corrected `SaveWithGeneratedKey` leaves the same table.

## Model

| member | source | states |
|---|---|---|
| `Common.Wrap32` | app/src/main/java/hexlet/code/controllers/UrlController.java:83-98 | Java `int` arithmetic: the result is congruent to the exact value modulo 2^32 and equals it when no overflow happens |
| `UrlPolicy.LooksLikeDomainIsRegex` | app/src/main/java/hexlet/code/controllers/UrlController.java:39 | the character scanner accepts exactly the strings matched by `^[a-zA-Z0-9.-]+\.[a-zA-Z]{2,}.*`, where the final `.*` stops at Java line terminators |
| `UrlPolicy.WithSchemeRule` | app/src/main/java/hexlet/code/controllers/UrlController.java:39-41 | input already starting with `http://` or `https://` is unchanged; other input gains `http://` exactly when it matches the domain pattern |
| `UrlPolicy.NormalizeUrl` | app/src/main/java/hexlet/code/controllers/UrlController.java:127-133 | the canonical name starts with `protocol://` and is at least as long as protocol, separator and host together |
| `UrlPolicy.NormalizeRoundTrip` | app/src/main/java/hexlet/code/controllers/UrlController.java:127-148 | reading a canonical name back gives the protocol and the lower-cased host; the port is absent exactly when it was unwritten (-1), 80 under http or 443 under https, and otherwise it is the written port. The decoder accepts only a port spelled as `Integer.toString` prints it (no leading zero), so the port's spelling is fixed too |
| `UrlPolicy.SameNameIffSameSite` | app/src/main/java/hexlet/code/controllers/UrlController.java:127-148 | two records get the same canonical name exactly when protocol, case-folded host and kept port agree |
| `UrlPolicy.Canonicalized` | app/src/main/java/hexlet/code/controllers/UrlController.java:134-146 | the canonical record (host lower-cased, default port dropped) names the same site as the original |
| `UrlPolicy.NormalizeCanonicalized` | app/src/main/java/hexlet/code/controllers/UrlController.java:127-148 | normalising an already canonical record gives the same name, and canonicalising twice changes nothing |
| `UrlPolicy.NamesIgnoreLocation` | app/src/main/java/hexlet/code/controllers/UrlController.java:127-148 | path, query and fragment never reach either naming rule |
| `UrlPolicy.CanonicalName` | app/src/main/java/hexlet/code/controllers/UrlController.java:28-53 | null or empty input is blank, and nothing else is; a non-empty input is accepted exactly when its parse succeeds with a non-empty host, and then the name is the normalisation of that record |
| `UrlPolicy.CanonicalNameIdempotent` | app/src/main/java/hexlet/code/controllers/UrlController.java:39-53 | for a parser that reads canonical names back as the same site, submitting an accepted name yields that name again |
| `UrlPolicy.AppName` | app/src/main/java/hexlet/code/App.java:138 | the App key is `protocol://` followed by the authority exactly as written, or `null` when there is none |
| `UrlPolicy.AppNameKeepsAuthority` | app/src/main/java/hexlet/code/App.java:137-138 | under one protocol, two App keys are equal exactly when the authorities are spelled the same (a null authority spelled `null`) |
| `UrlPolicy.PoliciesAgreeOnPlainHosts` | app/src/main/java/hexlet/code/App.java:138 | for a lower-case host with no port and no user info, both rules give the same name |
| `UrlPolicy.PoliciesDisagreeOnDefaultPort` | app/src/main/java/hexlet/code/App.java:138 | `http://Example.com:80/path` and `http://example.com` get one name from the controller but two different App keys |
| `UrlRepository.Save` | app/src/main/java/hexlet/code/repository/UrlRepository.java:14-22 | exactly one row is appended, carrying the given name and the clock's time rather than the object's; earlier rows are unchanged; a valid table stays valid with a fresh id; the object comes back as given |
| `UrlRepository.SaveLeavesIdUnset` | app/src/main/java/hexlet/code/repository/UrlRepository.java:14-22 | a freshly built `Url` still has no id after the save, while its row got the next identity value |
| `UrlRepository.SaveWithGeneratedKey` | app/src/main/java/hexlet/code/repository/UrlRepository.java:14-22 | the same insert, which also hands back the generated id; looking that id up finds the new row |
| `UrlRepository.FindByName` | app/src/main/java/hexlet/code/repository/UrlRepository.java:25-39 | a found row is in the table and carries exactly that name; nothing is found exactly when no row has the name |
| `UrlRepository.Find` | app/src/main/java/hexlet/code/repository/UrlRepository.java:58-72 | a found row is in the table with that id; nothing is found exactly when no row has the id |
| `UrlRepository.GetEntities` | app/src/main/java/hexlet/code/repository/UrlRepository.java:41-56 | every row comes back, as a permutation, ordered by non-increasing id; in a valid table the order is strictly decreasing |
| `UrlRepository.GetEntitiesNewestFirst` | app/src/main/java/hexlet/code/repository/UrlRepository.java:41-56 | in a valid table the listing is the insertion order reversed |
| `UrlRepository.FindUnique` | app/src/main/java/hexlet/code/repository/UrlRepository.java:58-72 | in a valid table, looking up a row's id finds that row |
| `UrlRepository.SavedNameIsFound` | app/src/main/java/hexlet/code/repository/UrlRepository.java:14-39 | after a name is saved, `findByName` of that name finds a row |
| `UrlRepository.SaveFreshNameKeepsNamesUnique` | app/src/main/java/hexlet/code/repository/UrlRepository.java:14-22 | saving a name the table lacks keeps names unique |
| `UrlRepository.SaveThenFind` | app/src/main/java/hexlet/code/repository/UrlRepository.java:14-72 | after a save, the new id finds the new row and every other id finds what it found before |
| `UrlCheckRepository.Save` | app/src/main/java/hexlet/code/repository/UrlCheckRepository.java:21-57 | one row is appended with the given status, title, h1, description and url id, and the clock's time; earlier rows are unchanged; the new row is handed back; a valid table stays valid, and the new id is larger than every earlier one |
| `UrlCheckRepository.TruncateDB` | app/src/main/java/hexlet/code/repository/UrlCheckRepository.java:161-174 | the table is empty and valid, identity restarts at 1, and whatever check is saved next, at any time, gets id 1 |
| `UrlCheckRepository.LatestChecks` | app/src/main/java/hexlet/code/repository/UrlCheckRepository.java:94-122 | the keys are exactly the url ids that have checks; each value is a row of its key's url; no row of that url has a larger id |
| `UrlCheckRepository.Greatest` | app/src/main/java/hexlet/code/repository/UrlCheckRepository.java:61-65 | the first row under `ORDER BY url_id DESC, id DESC`: a row of the table, with no row greater in (url id, id) order |
| `UrlCheckRepository.FindLastCheckByUrlId` | app/src/main/java/hexlet/code/repository/UrlCheckRepository.java:59-92 | as written: empty exactly when the table is empty; otherwise the row with the greatest id among the rows of the greatest url id in the table, relabelled with the caller's url id |
| `UrlCheckRepository.ChecksOf` | app/src/main/java/hexlet/code/repository/UrlCheckRepository.java:127 | exactly the rows with that url id; it is empty exactly when none has it |
| `UrlCheckRepository.FindLastCheckForUrl` | app/src/main/java/hexlet/code/repository/UrlCheckRepository.java:59-92 | with the filter the method's name promises: empty exactly when the url has no checks; otherwise the url's own check with the greatest id |
| `UrlCheckRepository.GetAllChecks` | app/src/main/java/hexlet/code/repository/UrlCheckRepository.java:124-159 | a permutation of exactly the url's checks, ordered by non-increasing creation time |
| `UrlCheckRepository.IdsIdentifyRows` | app/src/main/java/hexlet/code/repository/UrlCheckRepository.java:47-52 | in a valid table, rows with equal ids are the same row |
| `UrlCheckRepository.LastCheckAgreesWithLatest` | app/src/main/java/hexlet/code/repository/UrlCheckRepository.java:94-122 | the filtered last-check lookup returns the url's entry in the latest-checks map, and nothing when there is none |
| `UrlCheckRepository.LastCheckIgnoresUrlId` | app/src/main/java/hexlet/code/repository/UrlCheckRepository.java:61-81 | with checks of urls 1 and 2, asking for url 1's last check returns url 2's check labelled as url 1's; the filtered lookup returns url 1's own |
| `UrlCheckRepository.LatestIsNewest` | app/src/main/java/hexlet/code/repository/UrlCheckRepository.java:97-99 | every url with checks has a latest check, and when the clock never runs backwards that greatest-id check is also one of its most recent |
| `UrlCheckRepository.SaveKeepsChronological` | app/src/main/java/hexlet/code/repository/UrlCheckRepository.java:30-41 | saving at a time no earlier than every stored check keeps creation times in insertion order |
| `UrlCheckRepository.SavedCheckIsLatest` | app/src/main/java/hexlet/code/repository/UrlCheckRepository.java:21-122 | after a save, the saved row is its url's latest check and every other url's latest check is unchanged |
| `PageAnalysis.SelectFirst` | app/src/main/java/hexlet/code/controllers/UrlCheckController.java:43 | nothing exactly when no element matches; otherwise the earliest matching element |
| `PageAnalysis.H1Of` | app/src/main/java/hexlet/code/controllers/UrlCheckController.java:43-47 | the text of the first `h1` element, or "" when there is none |
| `PageAnalysis.DescriptionOf` | app/src/main/java/hexlet/code/controllers/UrlCheckController.java:49-52 | the `content` of the first `meta[name=description]`, or "" when there is none |
| `PageAnalysis.Analyze` | app/src/main/java/hexlet/code/controllers/UrlCheckController.java:41-52 | the recorded fields: the document's title, the text of the first `h1` element ("" when there is none) and the `content` of the first `meta[name=description]` ("" when there is none) |
| `PageAnalysis.SelectFirstSplit` | app/src/main/java/hexlet/code/controllers/UrlCheckController.java:43-52 | in a document split in two, the first part decides when it has a match; otherwise the second part does |
| `PageAnalysis.LaterElementsIgnored` | app/src/main/java/hexlet/code/controllers/UrlCheckController.java:43-52 | once a heading and a description meta are present, appending elements does not change what is recorded |
| `PageAnalysis.BarePageFallsBack` | app/src/main/java/hexlet/code/controllers/UrlCheckController.java:43-52 | a page with no heading and no description records the title and two empty strings |
| `PageAnalysis.LeadingHeadingWins` | app/src/main/java/hexlet/code/controllers/UrlCheckController.java:43-52 | a heading placed first supplies the h1; the description is unaffected |
| `UrlController.CreateUrl` | app/src/main/java/hexlet/code/controllers/UrlController.java:26-79 | blank input gives "URL не может быть пустым"/danger; a malformed address gives "Некорректный URL"/danger; both redirect to "/" and leave the table alone. A stored name gives "Страница уже существует"/warning with no change. A new name appends exactly one row with that name, stamped now, and gives "Страница успешно добавлена"/success. Both of those go to "/urls" |
| `UrlController.CreateUrlKeepsTableSound` | app/src/main/java/hexlet/code/controllers/UrlController.java:57-66 | the handler keeps ids valid and never adds a second row with a name already present |
| `UrlController.SecondSubmissionIsDuplicate` | app/src/main/java/hexlet/code/controllers/UrlController.java:57-68 | submitting the same accepted text again saves nothing and warns |
| `UrlController.SameSiteIsDuplicate` | app/src/main/java/hexlet/code/controllers/UrlController.java:53-68 | a second spelling of the same site (host case, default port) is reported as already present |
| `UrlController.CanonicalResubmissionIsDuplicate` | app/src/main/java/hexlet/code/controllers/UrlController.java:39-68 | submitting the stored canonical name itself is recognised as already present |
| `UrlController.Range` | app/src/main/java/hexlet/code/controllers/UrlController.java:99-102 | `IntStream.range(lo, hi)`: the integers lo to hi - 1 in order, empty when hi <= lo |
| `UrlController.ShowUrls` | app/src/main/java/hexlet/code/controllers/UrlController.java:81-111 | the page lists the given urls and the latest checks; pages are 1..n for n urls (empty when n + 1 overflows); the current page is the `page` parameter, defaulting to 1, through `int` arithmetic |
| `UrlController.PagesNumberTheUrls` | app/src/main/java/hexlet/code/controllers/UrlController.java:97-102 | k is a page number exactly when 1 <= k <= n |
| `UrlController.ShowUrlById` | app/src/main/java/hexlet/code/controllers/UrlController.java:113-125 | not found exactly when no row has the id; otherwise the url with that id and its checks, each exactly once (a permutation of its rows in the table), newest first |
| `UrlCheckController.CheckOf` | app/src/main/java/hexlet/code/controllers/UrlCheckController.java:37-58 | a check carries the response status unfiltered, the page title, the first heading, the description and the url's id |
| `UrlCheckController.AddCheck` | app/src/main/java/hexlet/code/controllers/UrlCheckController.java:22-79 | unknown id: nothing saved, a danger flash holding the exception message, no redirect. Failed fetch: nothing saved, "Некорректный адрес"/danger. Fetched page: exactly one check appended for this url, with status, title, h1, description and the clock's time, and "Страница успешно проверена"/success. Known urls always redirect to "/urls/" + id |
| `UrlCheckController.RedirectNamesTheUrl` | app/src/main/java/hexlet/code/controllers/UrlCheckController.java:78 | the redirect path is "/urls/" followed by digits that read back as the url's id |
| `UrlCheckController.FailureKeepsHistory` | app/src/main/java/hexlet/code/controllers/UrlCheckController.java:68-75 | an unknown id or a failed fetch leaves every url's check list and latest check unchanged |
| `UrlCheckRepository.ChecksOfAppend` | app/src/main/java/hexlet/code/repository/UrlCheckRepository.java:126-134 | a row appended to the table joins the end of its own url's check list and no other list |
| `UrlCheckRepository.SaveAddsToOwnHistory` | app/src/main/java/hexlet/code/repository/UrlCheckRepository.java:124-159 | a saved check appears in its url's history, which grows by one |
| `UrlCheckRepository.SaveKeepsOtherHistories` | app/src/main/java/hexlet/code/repository/UrlCheckRepository.java:124-159 | a saved check leaves every other url's history unchanged |
| `UrlCheckController.SuccessIsLatest` | app/src/main/java/hexlet/code/controllers/UrlCheckController.java:58-66 | after a successful check, the new row is the url's latest check and joins its history, which grows by one; other urls' histories and latest checks are unchanged |
| `UrlCheckController.ErrorStatusIsRecorded` | app/src/main/java/hexlet/code/controllers/UrlCheckController.java:37 | a 503 answer is recorded as status 503 |
| `App.Before` | app/src/main/java/hexlet/code/App.java:114-124 | the request attributes receive the session's flash and flash type, and both session slots end up null |
| `App.FlashShownOnce` | app/src/main/java/hexlet/code/App.java:114-124 | a flash set by a handler is shown on the next request and not on the one after |
| `App.BeforeIdempotent` | app/src/main/java/hexlet/code/App.java:114-124 | once the session is emptied, running the hook again changes nothing |
| `App.PostUrls` | app/src/main/java/hexlet/code/App.java:133-158 | always redirects to "/". A null field or parse failure gives "Incorrect URL"/danger and no save. An existing `protocol://authority` name gives "The page already exists"/info and no save. A new name appends exactly one row with that name, stamped now, and gives "The page added successfully"/success |
| `App.PostUrlsKeepsTableSound` | app/src/main/java/hexlet/code/App.java:140-151 | the handler keeps ids valid and never adds a duplicate name |
| `App.PostUrlsSecondSubmissionIsDuplicate` | app/src/main/java/hexlet/code/App.java:140-151 | the same parsable text submitted twice is saved once |
| `App.DifferentAuthoritiesBothSaved` | app/src/main/java/hexlet/code/App.java:137-151 | two submissions whose authorities are spelled differently are both saved, even when they name one site |
| `App.ShowUrl` | app/src/main/java/hexlet/code/App.java:166-175 | 404 exactly when no row has the id; otherwise the row with that id is rendered |
| `App.SavedUrlIsShown` | app/src/main/java/hexlet/code/App.java:146-175 | a url the handler has just saved is rendered at the table's next id |

## Left out

- Database failures: every repository call is taken to succeed. This drops the `SQLException` branches at UrlController.java:74-78 and 88-92, and the catch-all at UrlCheckController.java:72-75 when reached through a failed save. JDBC, HikariCP, Flyway and schema setup are absent.
- Javalin is absent: routing, template rendering, session storage, `/health`, the port read from the environment, and the GET "/" and GET "/urls" handlers of App.java, which only render.
- The HTTP client and the HTML parser are absent. A fetch is an input: either a status with a parsed document, or a client failure.
- Document text follows the simplified document model, not jsoup's. `Element.text()` is taken as given. `meta[name=description]` compares the attribute exactly, whereas jsoup ignores case and surrounding spaces.
- `java.net.URI`/`URL` parsing is a function parameter. Results such as `CanonicalNameIdempotent` assume two things of it. First, every record it returns with a host is well shaped, stated as `ParsesWellShaped`: a lower-case scheme and a host that does not end in `:digits`. Second, for every record it returns with a host, it parses that record's canonical name back as the same site, stated as `ReadsBackCanonical`. Both are about the parser's own results, not about arbitrary records. Both handlers share one parser: `URI.normalize()` only rewrites the path, which neither naming rule uses.
- `String.toLowerCase()` is taken as ASCII lower-casing. The locale-dependent mappings of other letters are absent.
- `UrlRepository.findById`, `getUrls`, `delete` and `truncateDB` are not part of this model. `showUrls` takes the url list as an input, and `showUrlById` and `addCheck` use `find` in place of `findById`.
- Path and query parameters arrive already parsed. A non-numeric `id` or `page` (a Javalin validation error, or a null id) is absent.
- Wall-clock time is a natural number. Virtual threads and concurrent requests are absent.
- SQL leaves the order of rows with equal sort keys unspecified; the model fixes it to table order. The same goes for which row `findByName` returns when several share a name.
- UrlPolicy.NormalizeUrl: its own contract only fixes the `protocol://` prefix. The full shape is stated by `NormalizeRoundTrip`, which needs a host not ending in a port suffix (':' and a port numeral without a leading zero) and a protocol without ':' to read the name back unambiguously.

## Findings

| source | as written | input that shows it | evidently intended | confidence | as-written member | corrected member |
|---|---|---|---|---|---|---|
| app/src/main/java/hexlet/code/repository/UrlRepository.java:14-22 | `save` inserts the row but never reads the generated key, so the `Url` it was given keeps a null id | `save(new Url("https://example.com"))` into an empty table stores row id 1, yet the object's id stays null (`SaveLeavesIdUnset`); AppTest.java:346-347 then builds "/urls/null/checks" from it | hand the generated id back into the object, as `UrlCheckRepository.save` does | not executed; high | `UrlRepository.Save` | `UrlRepository.SaveWithGeneratedKey` |
| app/src/main/java/hexlet/code/repository/UrlCheckRepository.java:61-81 | `findLastCheckByUrlId` has no `WHERE url_id = ?`; it returns the newest check of the greatest url id in the table and relabels it with the caller's id | checks (id 1, url 1, "Alpha") and (id 2, url 2, "Beta"): asking for url 1 returns "Beta" labelled as url 1 (`LastCheckIgnoresUrlId`) | the newest check of the given url, or none | not executed; high | `UrlCheckRepository.FindLastCheckByUrlId` | `UrlCheckRepository.FindLastCheckForUrl` |

=== FILE: app.dfy ===
/**
 * The handlers `App` registers inline: the `before` hook that moves a flash
 * from the session into the request, the older POST "/urls" handler keyed by
 * `protocol://authority`, and GET "/urls/{id}" with its 404 branch.
 */
module App {
  import opened Common
  import opened UrlPolicy
  import opened UrlRepository

  const INCORRECT_URL := "Incorrect URL"
  const PAGE_EXISTS := "The page already exists"
  const PAGE_ADDED := "The page added successfully"

  // ---------------------------------------------------------------------------
  // before: one-shot flash transfer

  /** The request attributes "flash" and "flash-type"; `None` is an unset attribute. */
  datatype Attributes = Attributes(flash: Option<string>, flashType: Option<string>)

  datatype Transfer = Transfer(session: Session, attributes: Attributes)

  /** Each non-null session slot is copied to the request and cleared; a null slot stays null and unset. */
  function Before(s: Session): (r: Transfer)
    ensures r.attributes.flash == s.flash && r.attributes.flashType == s.flashType
    ensures r.session.flash.None? && r.session.flashType.None?
  {
    Transfer(Session(None, None), Attributes(s.flash, s.flashType))
  }

  /** A flash set by a handler is shown on the next request and not on the one after. */
  lemma FlashShownOnce(f: Flash)
    ensures Before(WithFlash(f)).attributes == Attributes(Some(f.message), Some(f.kind))
    ensures Before(Before(WithFlash(f)).session).attributes == Attributes(None, None)
  {
  }

  /** Running the hook again changes nothing further: the session is already empty. */
  lemma BeforeIdempotent(s: Session)
    ensures Before(Before(Before(s).session).session) == Before(Before(s).session)
  {
  }

  // ---------------------------------------------------------------------------
  // POST /urls

  /**
   * `new URI(input).toURL()` is the parser; a null form field, a parse
   * failure or any other exception takes the "Incorrect URL" branch. Every
   * outcome redirects to "/".
   */
  function PostUrls(form: Option<string>, parse: Parser, urls: UrlTable, now: nat): (r: Handled<UrlTable>)
    ensures r.location == "/"
    ensures (form.None? || parse(form.value).None?) ==> r.state == urls && r.flash == Flash(INCORRECT_URL, "danger")
    ensures form.Some? && parse(form.value).Some? && HasName(urls, AppName(parse(form.value).value)) ==>
      r.state == urls && r.flash == Flash(PAGE_EXISTS, "info")
    ensures form.Some? && parse(form.value).Some? && !HasName(urls, AppName(parse(form.value).value)) ==>
      && r.flash == Flash(PAGE_ADDED, "success")
      && |r.state.rows| == |urls.rows| + 1 && r.state.rows[..|urls.rows|] == urls.rows
      && r.state.rows[|urls.rows|].name == AppName(parse(form.value).value)
      && r.state.rows[|urls.rows|].createdAt == now
  {
    if form.None? then Handled(urls, "/", Flash(INCORRECT_URL, "danger"))
    else match parse(form.value)
      case None => Handled(urls, "/", Flash(INCORRECT_URL, "danger"))
      case Some(u) =>
        var name := AppName(u);
        if FindByName(urls, name).Some? then Handled(urls, "/", Flash(PAGE_EXISTS, "info"))
        else
          var saved := Save(urls, Url(None, name, Some(now)), now);
          Handled(saved.table, "/", Flash(PAGE_ADDED, "success"))
  }

  /** The handler keeps identities valid and adds no duplicate name. */
  lemma PostUrlsKeepsTableSound(form: Option<string>, parse: Parser, urls: UrlTable, now: nat)
    requires Valid(urls) && NamesUnique(urls)
    ensures Valid(PostUrls(form, parse, urls, now).state)
    ensures NamesUnique(PostUrls(form, parse, urls, now).state)
  {
    if form.Some? && parse(form.value).Some? {
      var name := AppName(parse(form.value).value);
      if FindByName(urls, name).None? {
        SaveFreshNameKeepsNamesUnique(urls, Url(None, name, Some(now)), now);
      }
    }
  }

  /** The same text submitted twice: the second time nothing is saved. */
  lemma PostUrlsSecondSubmissionIsDuplicate(form: Option<string>, parse: Parser, urls: UrlTable, now: nat, later: nat)
    requires form.Some? && parse(form.value).Some?
    ensures var once := PostUrls(form, parse, urls, now).state;
      PostUrls(form, parse, once, later) == Handled(once, "/", Flash(PAGE_EXISTS, "info"))
  {
    var name := AppName(parse(form.value).value);
    var once := PostUrls(form, parse, urls, now).state;
    if !HasName(urls, name) {
      SavedNameIsFound(urls, Url(None, name, Some(now)), now);
    }
    assert HasName(once, name);
  }

  /**
   * Two submissions whose authorities are spelled differently are both saved,
   * even when they name one site (`Example.com:80` and `example.com`).
   */
  lemma DifferentAuthoritiesBothSaved(a: string, b: string, parse: Parser, urls: UrlTable, now: nat, later: nat)
    requires parse(a).Some? && parse(b).Some? && parse(a).value.protocol == parse(b).value.protocol
    requires AuthorityText(parse(a).value.authority) != AuthorityText(parse(b).value.authority)
    requires !HasName(urls, AppName(parse(b).value))
    ensures var once := PostUrls(Some(a), parse, urls, now).state;
      PostUrls(Some(b), parse, once, later).flash == Flash(PAGE_ADDED, "success")
  {
    var u, v := parse(a).value, parse(b).value;
    AppNameKeepsAuthority(u, v);
    var once := PostUrls(Some(a), parse, urls, now).state;
    forall i | 0 <= i < |once.rows|
      ensures once.rows[i].name != AppName(v)
    {
      if i < |urls.rows| {
        assert once.rows[i] == urls.rows[i];
      }
    }
  }

  // ---------------------------------------------------------------------------
  // GET /urls/{id}

  datatype Response = Status404 | Render(url: UrlRow)

  function ShowUrl(urls: UrlTable, id: int): (r: Response)
    ensures r.Status404? <==> forall i :: 0 <= i < |urls.rows| ==> urls.rows[i].id != id
    ensures r.Render? ==> r.url in urls.rows && r.url.id == id
  {
    match Find(urls, id)
    case None => Status404
    case Some(url) => Render(url)
  }

  /** A url saved by the handler is shown at its generated id. */
  lemma SavedUrlIsShown(form: Option<string>, parse: Parser, urls: UrlTable, now: nat)
    requires Valid(urls)
    requires PostUrls(form, parse, urls, now).flash.message == PAGE_ADDED
    ensures var after := PostUrls(form, parse, urls, now).state;
      ShowUrl(after, urls.nextId) == Render(after.rows[|urls.rows|])
  {
    var after := PostUrls(form, parse, urls, now).state;
    var name := AppName(parse(form.value).value);
    SaveThenFind(urls, Url(None, name, Some(now)), now, urls.nextId);
  }
}

=== FILE: common.dfy ===
/**
 * Shared vocabulary of the page analyzer model: optional values, flash
 * messages and the session slots that carry them, ASCII character classes,
 * decimal rendering of numbers and Java's 32-bit `int` arithmetic.
 */
module Common {

  /** Java's `Optional` (and a nullable reference). */
  datatype Option<T> = None | Some(value: T)

  /** A user-facing message and its kind ("danger", "warning", "success", "info"). */
  datatype Flash = Flash(message: string, kind: string)

  /** The two session slots, "flash" and "flash-type"; `None` is a null attribute. */
  datatype Session = Session(flash: Option<string>, flashType: Option<string>)

  /** The session after a handler's `setFlashMessage` (or the two inline `sessionAttribute` calls). */
  function WithFlash(f: Flash): (s: Session)
    ensures s.flash.Some? && s.flash.value == f.message
    ensures s.flashType.Some? && s.flashType.value == f.kind
  {
    Session(Some(f.message), Some(f.kind))
  }

  /** What a form handler leaves behind: the new state, the redirect target and the flash it set. */
  datatype Handled<S> = Handled(state: S, location: string, flash: Flash)

  // ---------------------------------------------------------------------------
  // Java `int`

  const INT_MIN: int := -0x8000_0000
  const INT_MAX: int := 0x7fff_ffff

  type Int32 = x: int | INT_MIN <= x <= INT_MAX

  /** Two's-complement wrap-around of a Java `int` expression. */
  function Wrap32(x: int): (r: Int32)
    ensures (r - x) % 0x1_0000_0000 == 0
    ensures INT_MIN <= x <= INT_MAX ==> r == x
  {
    (x - INT_MIN) % 0x1_0000_0000 + INT_MIN
  }

  // ---------------------------------------------------------------------------
  // Characters (ASCII only: `toLowerCase` is taken as ASCII lower-casing)

  predicate IsAsciiUpper(c: char) { 'A' <= c <= 'Z' }

  predicate IsAsciiLower(c: char) { 'a' <= c <= 'z' }

  predicate IsAsciiLetter(c: char) { IsAsciiUpper(c) || IsAsciiLower(c) }

  predicate IsDigit(c: char) { '0' <= c <= '9' }

  predicate AllDigits(s: string) {
    forall i :: 0 <= i < |s| ==> IsDigit(s[i])
  }

  function ToLower(c: char): (r: char)
    ensures IsAsciiUpper(c) ==> IsAsciiLower(r) && r as int == c as int + 32
    ensures !IsAsciiUpper(c) ==> r == c
  {
    if IsAsciiUpper(c) then (c as int + 32) as char else c
  }

  /** ASCII lower-casing of a whole string. */
  function LowerAscii(s: string): (r: string)
    ensures |r| == |s|
    ensures forall i :: 0 <= i < |s| ==> r[i] == ToLower(s[i])
    ensures forall i :: 0 <= i < |r| ==> !IsAsciiUpper(r[i])
  {
    seq(|s|, i requires 0 <= i < |s| => ToLower(s[i]))
  }

  lemma LowerAsciiIdempotent(s: string)
    ensures LowerAscii(LowerAscii(s)) == LowerAscii(s)
  {
  }

  /** Lower-casing leaves a string without upper-case letters as it is. */
  lemma LowerAsciiOfLower(s: string)
    requires forall i :: 0 <= i < |s| ==> !IsAsciiUpper(s[i])
    ensures LowerAscii(s) == s
  {
  }

  // ---------------------------------------------------------------------------
  // Searching a sequence

  /** Index of the first element satisfying `p`. */
  function FirstIndex<T>(s: seq<T>, p: T -> bool): (r: Option<nat>)
    ensures r.None? <==> forall i :: 0 <= i < |s| ==> !p(s[i])
    ensures r.Some? ==> r.value < |s| && p(s[r.value])
    ensures r.Some? ==> forall i :: 0 <= i < r.value ==> !p(s[i])
  {
    if |s| == 0 then None
    else if p(s[0]) then Some(0)
    else match FirstIndex(s[1..], p)
      case None => None
      case Some(k) => Some(k + 1)
  }

  /** Index of the first occurrence of `c` (`String.indexOf`). */
  function IndexOf(s: string, c: char): (r: Option<nat>)
    ensures r.None? <==> forall i :: 0 <= i < |s| ==> s[i] != c
    ensures r.Some? ==> r.value < |s| && s[r.value] == c
    ensures r.Some? ==> forall i :: 0 <= i < r.value ==> s[i] != c
  {
    FirstIndex(s, (x: char) => x == c)
  }

  /** Index of the last occurrence of `c` (`String.lastIndexOf`). */
  function LastIndexOf(s: string, c: char): (r: Option<nat>)
    ensures r.None? <==> forall i :: 0 <= i < |s| ==> s[i] != c
    ensures r.Some? ==> r.value < |s| && s[r.value] == c
    ensures r.Some? ==> forall i :: r.value < i < |s| ==> s[i] != c
  {
    if |s| == 0 then None
    else if s[|s| - 1] == c then Some(|s| - 1)
    else LastIndexOf(s[..|s| - 1], c)
  }

  // ---------------------------------------------------------------------------
  // Decimal numerals (`StringBuilder.append(int)`, `"/urls/" + id`)

  function DigitChar(d: nat): (c: char)
    requires d < 10
    ensures IsDigit(c)
  {
    (48 + d) as char
  }

  function DigitValue(c: char): (d: nat)
    requires IsDigit(c)
    ensures d < 10 && DigitChar(d) == c
  {
    c as int - 48
  }

  /** The shortest decimal numeral of `n`. */
  function NatToDecimal(n: nat): (r: string)
    ensures |r| >= 1 && AllDigits(r)
    ensures r[0] == '0' ==> n == 0
  {
    if n < 10 then [DigitChar(n)] else NatToDecimal(n / 10) + [DigitChar(n % 10)]
  }

  function DecimalToNat(s: string): nat
    requires AllDigits(s)
  {
    if |s| == 0 then 0 else DecimalToNat(s[..|s| - 1]) * 10 + DigitValue(s[|s| - 1])
  }

  lemma {:induction false} DecimalRoundTrip(n: nat)
    ensures DecimalToNat(NatToDecimal(n)) == n
  {
    if n >= 10 {
      var s := NatToDecimal(n);
      DecimalRoundTrip(n / 10);
      assert s[..|s| - 1] == NatToDecimal(n / 10);
    }
  }
}

=== FILE: page_analysis.dfy ===
/**
 * What a check reads off a fetched page: the document title, the text of
 * the first `h1` element and the `content` of the first
 * `meta[name=description]` element, each falling back to "" when absent.
 * A parsed document is a title and its elements in document order.
 */
module PageAnalysis {
  import opened Common

  datatype Element = Element(tag: string, attributes: map<string, string>, text: string)

  datatype Document = Document(title: string, elements: seq<Element>)

  /** The selector `h1`. */
  predicate IsH1(e: Element) {
    e.tag == "h1"
  }

  /** The selector `meta[name=description]`. */
  predicate IsDescriptionMeta(e: Element) {
    e.tag == "meta" && "name" in e.attributes && e.attributes["name"] == "description"
  }

  /** `Element.attr(key)`: the attribute's value, or "" when the element lacks it. */
  function Attr(e: Element, key: string): (r: string)
    ensures key in e.attributes ==> r == e.attributes[key]
    ensures key !in e.attributes ==> r == ""
  {
    if key in e.attributes then e.attributes[key] else ""
  }

  /** `Document.selectFirst`: the first element in document order that matches. */
  function SelectFirst(elements: seq<Element>, matches: Element -> bool): (r: Option<Element>)
    ensures r.None? <==> forall i :: 0 <= i < |elements| ==> !matches(elements[i])
    ensures r.Some? ==> exists i :: (0 <= i < |elements| && elements[i] == r.value && matches(r.value)
      && forall j :: 0 <= j < i ==> !matches(elements[j]))
  {
    match FirstIndex(elements, matches)
    case None => None
    case Some(i) => Some(elements[i])
  }

  /** The recorded h1: the first heading's text, or "" without one. */
  function H1Of(d: Document): (r: string)
    ensures (forall i :: 0 <= i < |d.elements| ==> !IsH1(d.elements[i])) ==> r == ""
    ensures forall i :: (0 <= i < |d.elements| && IsH1(d.elements[i])
      && (forall j :: 0 <= j < i ==> !IsH1(d.elements[j]))) ==> r == d.elements[i].text
  {
    match SelectFirst(d.elements, IsH1)
    case None => ""
    case Some(e) => e.text
  }

  /** The recorded description: the first description meta's `content`, or "" without one. */
  function DescriptionOf(d: Document): (r: string)
    ensures (forall i :: 0 <= i < |d.elements| ==> !IsDescriptionMeta(d.elements[i])) ==> r == ""
    ensures forall i :: (0 <= i < |d.elements| && IsDescriptionMeta(d.elements[i])
      && (forall j :: 0 <= j < i ==> !IsDescriptionMeta(d.elements[j]))) ==> r == Attr(d.elements[i], "content")
  {
    match SelectFirst(d.elements, IsDescriptionMeta)
    case None => ""
    case Some(e) => Attr(e, "content")
  }

  /** The three page fields of a check. */
  datatype Extract = Extract(title: string, h1: string, description: string)

  /**
   * What a check records of a page: its title, the text of its first `h1`
   * and the `content` of its first description meta, "" for each one missing.
   */
  function Analyze(d: Document): (r: Extract)
    ensures r.title == d.title
    ensures (forall i :: 0 <= i < |d.elements| ==> !IsH1(d.elements[i])) ==> r.h1 == ""
    ensures forall i :: (0 <= i < |d.elements| && IsH1(d.elements[i])
      && (forall j :: 0 <= j < i ==> !IsH1(d.elements[j]))) ==> r.h1 == d.elements[i].text
    ensures (forall i :: 0 <= i < |d.elements| ==> !IsDescriptionMeta(d.elements[i])) ==> r.description == ""
    ensures forall i :: (0 <= i < |d.elements| && IsDescriptionMeta(d.elements[i])
      && (forall j :: 0 <= j < i ==> !IsDescriptionMeta(d.elements[j]))) ==> r.description == Attr(d.elements[i], "content")
  {
    Extract(d.title, H1Of(d), DescriptionOf(d))
  }

  // ---------------------------------------------------------------------------
  // Properties

  predicate HasMatch(elements: seq<Element>, matches: Element -> bool) {
    exists i :: 0 <= i < |elements| && matches(elements[i])
  }

  /** Selecting in a document split in two: the first part decides when it has a match. */
  lemma SelectFirstSplit(a: seq<Element>, b: seq<Element>, matches: Element -> bool)
    ensures SelectFirst(a + b, matches) == if HasMatch(a, matches) then SelectFirst(a, matches) else SelectFirst(b, matches)
  {
    var s := a + b;
    var r := SelectFirst(s, matches);
    assert forall j :: 0 <= j < |a| ==> s[j] == a[j];
    assert forall j :: |a| <= j < |s| ==> s[j] == b[j - |a|];
    if HasMatch(a, matches) {
      var ra := SelectFirst(a, matches);
      var i :| 0 <= i < |a| && a[i] == ra.value && matches(ra.value) && forall j :: 0 <= j < i ==> !matches(a[j]);
      var k :| 0 <= k < |s| && s[k] == r.value && matches(r.value) && forall j :: 0 <= j < k ==> !matches(s[j]);
      assert k == i;
    } else {
      var rb := SelectFirst(b, matches);
      if rb.Some? {
        var i :| 0 <= i < |b| && b[i] == rb.value && matches(rb.value) && forall j :: 0 <= j < i ==> !matches(b[j]);
        assert matches(s[|a| + i]);
        var k :| 0 <= k < |s| && s[k] == r.value && matches(r.value) && forall j :: 0 <= j < k ==> !matches(s[j]);
        assert k == |a| + i;
      }
    }
  }

  /** Elements after the first heading and the first description meta do not change what is recorded. */
  lemma LaterElementsIgnored(d: Document, more: seq<Element>)
    requires HasMatch(d.elements, IsH1) && HasMatch(d.elements, IsDescriptionMeta)
    ensures Analyze(Document(d.title, d.elements + more)) == Analyze(d)
  {
    SelectFirstSplit(d.elements, more, IsH1);
    SelectFirstSplit(d.elements, more, IsDescriptionMeta);
  }

  /** A page with neither a heading nor a description meta records two empty strings. */
  lemma BarePageFallsBack(title: string, elements: seq<Element>)
    requires !HasMatch(elements, IsH1) && !HasMatch(elements, IsDescriptionMeta)
    ensures Analyze(Document(title, elements)) == Extract(title, "", "")
  {
  }

  /** Prepending unrelated elements changes nothing; a leading heading decides the h1. */
  lemma LeadingHeadingWins(d: Document, heading: Element)
    requires IsH1(heading) && !IsDescriptionMeta(heading)
    ensures H1Of(Document(d.title, [heading] + d.elements)) == heading.text
    ensures DescriptionOf(Document(d.title, [heading] + d.elements)) == DescriptionOf(d)
  {
    SelectFirstSplit([heading], d.elements, IsDescriptionMeta);
  }
}

=== FILE: sorting.dfy ===
/**
 * `ORDER BY key DESC` over a sequence of rows: a stable insertion sort on
 * an integer key, proved to return a permutation of its input in
 * non-increasing key order.
 */
module Sorting {

  predicate NonIncreasing<T>(s: seq<T>, key: T -> int) {
    forall i, j :: 0 <= i < j < |s| ==> key(s[i]) >= key(s[j])
  }

  predicate StrictlyDecreasing<T>(s: seq<T>, key: T -> int) {
    forall i, j :: 0 <= i < j < |s| ==> key(s[i]) > key(s[j])
  }

  /** No two positions carry the same key (an identity column). */
  predicate DistinctKeys<T>(s: seq<T>, key: T -> int) {
    forall i, j :: 0 <= i < j < |s| ==> key(s[i]) != key(s[j])
  }

  /** Puts `x` in front of the first element whose key does not exceed its own. */
  function Insert<T>(x: T, s: seq<T>, key: T -> int): (r: seq<T>)
    requires NonIncreasing(s, key)
    ensures |r| == |s| + 1
    ensures NonIncreasing(r, key)
    ensures multiset(r) == multiset(s) + multiset{x}
    ensures r[0] == x || (|s| > 0 && r[0] == s[0])
  {
    if |s| == 0 then [x]
    else if key(x) >= key(s[0]) then [x] + s
    else
      var t := Insert(x, s[1..], key);
      assert s == [s[0]] + s[1..];
      assert key(t[0]) <= key(s[0]);
      assert forall j :: 0 <= j < |t| ==> key(t[j]) <= key(t[0]);
      [s[0]] + t
  }

  /** The elements of `s` by non-increasing key; equal keys keep their order in `s`. */
  function SortDesc<T>(s: seq<T>, key: T -> int): (r: seq<T>)
    ensures |r| == |s|
    ensures NonIncreasing(r, key)
    ensures multiset(r) == multiset(s)
  {
    if |s| == 0 then []
    else
      assert s == [s[0]] + s[1..];
      Insert(s[0], SortDesc(s[1..], key), key)
  }

  lemma {:induction false} InsertKeepsKeysDistinct<T>(x: T, s: seq<T>, key: T -> int)
    requires NonIncreasing(s, key) && DistinctKeys(s, key)
    requires forall i :: 0 <= i < |s| ==> key(s[i]) != key(x)
    ensures DistinctKeys(Insert(x, s, key), key)
  {
    if |s| > 0 && key(x) < key(s[0]) {
      var t := Insert(x, s[1..], key);
      InsertKeepsKeysDistinct(x, s[1..], key);
      assert key(t[0]) < key(s[0]);
      assert forall j :: 0 <= j < |t| ==> key(t[j]) <= key(t[0]);
    }
  }

  /** Distinct keys (an identity column) stay distinct through the sort. */
  lemma {:induction false} SortDescKeepsKeysDistinct<T>(s: seq<T>, key: T -> int)
    requires DistinctKeys(s, key)
    ensures DistinctKeys(SortDesc(s, key), key)
  {
    if |s| > 0 {
      var tail := s[1..];
      var t := SortDesc(tail, key);
      SortDescKeepsKeysDistinct(tail, key);
      forall i | 0 <= i < |t|
        ensures key(t[i]) != key(s[0])
      {
        assert t[i] in multiset(tail);
        var k :| 0 <= k < |tail| && tail[k] == t[i];
        assert s[k + 1] == t[i];
      }
      InsertKeepsKeysDistinct(s[0], t, key);
    }
  }

  lemma NonIncreasingDistinctIsStrict<T>(s: seq<T>, key: T -> int)
    requires NonIncreasing(s, key) && DistinctKeys(s, key)
    ensures StrictlyDecreasing(s, key)
  {
  }

  predicate StrictlyIncreasing<T>(s: seq<T>, key: T -> int) {
    forall i, j :: 0 <= i < j < |s| ==> key(s[i]) < key(s[j])
  }

  function Reverse<T>(s: seq<T>): (r: seq<T>)
    ensures |r| == |s|
    ensures forall i :: 0 <= i < |s| ==> r[i] == s[|s| - 1 - i]
  {
    if |s| == 0 then []
    else
      var r := Reverse(s[1..]) + [s[0]];
      assert forall i :: 0 <= i < |s| - 1 ==> r[i] == s[1..][|s| - 2 - i];
      r
  }

  lemma {:induction false} InsertSmallest<T>(x: T, t: seq<T>, key: T -> int)
    requires NonIncreasing(t, key)
    requires forall i :: 0 <= i < |t| ==> key(t[i]) > key(x)
    ensures Insert(x, t, key) == t + [x]
  {
    if |t| > 0 {
      InsertSmallest(x, t[1..], key);
      assert t == [t[0]] + t[1..];
    }
  }

  lemma StrictlyIncreasingTail<T>(s: seq<T>, key: T -> int)
    requires |s| > 0 && StrictlyIncreasing(s, key)
    ensures StrictlyIncreasing(s[1..], key)
    ensures forall i :: 0 <= i < |s[1..]| ==> key(s[1..][i]) > key(s[0])
  {
    var tail := s[1..];
    forall i, j | 0 <= i < j < |tail|
      ensures key(tail[i]) < key(tail[j])
    {
      assert tail[i] == s[i + 1] && tail[j] == s[j + 1];
    }
    forall i | 0 <= i < |tail|
      ensures key(tail[i]) > key(s[0])
    {
      assert tail[i] == s[i + 1];
    }
  }

  lemma ReverseKeepsBound<T>(t: seq<T>, x: T, key: T -> int)
    requires forall i :: 0 <= i < |t| ==> key(t[i]) > key(x)
    ensures forall i :: 0 <= i < |t| ==> key(Reverse(t)[i]) > key(x)
  {
    forall i | 0 <= i < |t|
      ensures key(Reverse(t)[i]) > key(x)
    {
      assert Reverse(t)[i] == t[|t| - 1 - i];
    }
  }

  /** Rows already in increasing key order come out of the descending sort reversed. */
  lemma {:induction false} SortIncreasingIsReverse<T>(s: seq<T>, key: T -> int)
    requires StrictlyIncreasing(s, key)
    ensures SortDesc(s, key) == Reverse(s)
  {
    if |s| > 0 {
      var tail := s[1..];
      StrictlyIncreasingTail(s, key);
      SortIncreasingIsReverse(tail, key);
      var t := SortDesc(tail, key);
      ReverseKeepsBound(tail, s[0], key);
      InsertSmallest(s[0], t, key);
      assert Reverse(s) == Reverse(tail) + [s[0]];
    }
  }
}

=== FILE: url_check_controller.dfy ===
/**
 * `UrlCheckController.addCheck`: fetch a stored address, read the page's
 * title, first heading and description, save them with the response status
 * as a new check, flash the outcome and redirect to the address's page.
 *
 * The HTTP client and the HTML parser are not modelled: `fetch` maps an
 * address to its response (status and parsed document) or to a failure of
 * the client, and the clock reading `now` stamps the saved check.
 */
module UrlCheckController {
  import opened Common
  import opened PageAnalysis
  import UrlRepository
  import opened UrlCheckRepository

  const CHECKED := "Страница успешно проверена"
  const UNREACHABLE := "Некорректный адрес"

  /** A response, or the client's `UnirestException`. */
  datatype Fetch = Unreachable | Fetched(status: Int32, page: Document)

  /**
   * What the handler leaves behind. `location` is `None` when the handler
   * ends in an exception instead of a redirect.
   */
  datatype CheckOutcome = CheckOutcome(checks: CheckTable, session: Session, location: Option<string>)

  /** The check a fetched page yields for url `urlId`. */
  function CheckOf(status: Int32, page: Document, urlId: nat): (c: UrlCheck)
    ensures c.statusCode == status && c.urlId == urlId
    ensures c.title == page.title && c.h1 == H1Of(page) && c.description == DescriptionOf(page)
  {
    var e := Analyze(page);
    UrlCheck(status, e.title, e.h1, e.description, urlId)
  }

  /**
   * POST "/urls/{id}/checks". For an id the table lacks, the dereference of
   * the missing url throws inside the `try`; the generic handler stores the
   * exception's message (`crashMessage`, possibly null) as a danger flash,
   * and the redirect line throws again, so no redirect happens.
   */
  function AddCheck(id: int, urls: UrlRepository.UrlTable, checks: CheckTable,
                    fetch: string -> Fetch, now: nat, crashMessage: Option<string>): (r: CheckOutcome)
    ensures UrlRepository.Find(urls, id).None? ==>
      r == CheckOutcome(checks, Session(crashMessage, Some("danger")), None)
    ensures UrlRepository.Find(urls, id).Some? ==> id >= 0 && r.location == Some("/urls/" + NatToDecimal(id))
    ensures UrlRepository.Find(urls, id).Some? && fetch(UrlRepository.Find(urls, id).value.name).Unreachable? ==>
      r.checks == checks && r.session == WithFlash(Flash(UNREACHABLE, "danger"))
    ensures UrlRepository.Find(urls, id).Some? && fetch(UrlRepository.Find(urls, id).value.name).Fetched? ==>
      var response := fetch(UrlRepository.Find(urls, id).value.name);
      && |r.checks.rows| == |checks.rows| + 1 && r.checks.rows[..|checks.rows|] == checks.rows
      && r.checks.rows[|checks.rows|].urlId == id
      && r.checks.rows[|checks.rows|].statusCode == response.status
      && r.checks.rows[|checks.rows|].title == response.page.title
      && r.checks.rows[|checks.rows|].h1 == H1Of(response.page)
      && r.checks.rows[|checks.rows|].description == DescriptionOf(response.page)
      && r.checks.rows[|checks.rows|].createdAt == now
      && r.session == WithFlash(Flash(CHECKED, "success"))
  {
    match UrlRepository.Find(urls, id)
    case None => CheckOutcome(checks, Session(crashMessage, Some("danger")), None)
    case Some(url) =>
      var location := Some("/urls/" + NatToDecimal(url.id));
      match fetch(url.name)
      case Unreachable => CheckOutcome(checks, WithFlash(Flash(UNREACHABLE, "danger")), location)
      case Fetched(status, page) =>
        var saved := Save(checks, CheckOf(status, page, url.id), now);
        CheckOutcome(saved.table, WithFlash(Flash(CHECKED, "success")), location)
  }

  // ---------------------------------------------------------------------------
  // Properties

  /** The redirect target names the url: its id reads back from the path. */
  lemma RedirectNamesTheUrl(id: int, urls: UrlRepository.UrlTable, checks: CheckTable,
                            fetch: string -> Fetch, now: nat, crashMessage: Option<string>)
    requires UrlRepository.Find(urls, id).Some?
    ensures var loc := AddCheck(id, urls, checks, fetch, now, crashMessage).location.value;
      |loc| > 6 && loc[..6] == "/urls/" && AllDigits(loc[6..]) && DecimalToNat(loc[6..]) == id
  {
    var loc := AddCheck(id, urls, checks, fetch, now, crashMessage).location.value;
    assert loc[6..] == NatToDecimal(id);
    DecimalRoundTrip(id);
  }

  /** A failed fetch or an unknown id leaves every url's history and latest check as it was. */
  lemma FailureKeepsHistory(id: int, urls: UrlRepository.UrlTable, checks: CheckTable,
                            fetch: string -> Fetch, now: nat, crashMessage: Option<string>, u: nat)
    requires UrlRepository.Find(urls, id).None? || fetch(UrlRepository.Find(urls, id).value.name).Unreachable?
    ensures var after := AddCheck(id, urls, checks, fetch, now, crashMessage).checks;
      && GetAllChecks(after, u) == GetAllChecks(checks, u)
      && FindLatestChecks(after) == FindLatestChecks(checks)
  {
  }

  /**
   * A successful check becomes its url's latest check and the newest entry of
   * its history; every other url's history and latest check are untouched.
   */
  lemma SuccessIsLatest(id: int, urls: UrlRepository.UrlTable, checks: CheckTable,
                        fetch: string -> Fetch, now: nat, crashMessage: Option<string>, u: nat)
    requires Valid(checks)
    requires UrlRepository.Find(urls, id).Some? && fetch(UrlRepository.Find(urls, id).value.name).Fetched?
    ensures var after := AddCheck(id, urls, checks, fetch, now, crashMessage).checks;
      var added := after.rows[|checks.rows|];
      && FindLatestChecks(after)[id] == added
      && |GetAllChecks(after, id)| == |GetAllChecks(checks, id)| + 1
      && added in GetAllChecks(after, id)
      && (u != id ==> GetAllChecks(after, u) == GetAllChecks(checks, u))
      && (u != id && u in FindLatestChecks(after) ==> u in FindLatestChecks(checks) && FindLatestChecks(after)[u] == FindLatestChecks(checks)[u])
  {
    var url := UrlRepository.Find(urls, id).value;
    var response := fetch(url.name);
    var c := CheckOf(response.status, response.page, url.id);
    var saved := Save(checks, c, now);
    assert AddCheck(id, urls, checks, fetch, now, crashMessage).checks == saved.table;
    SavedCheckIsLatest(checks, c, now);
    SaveAddsToOwnHistory(checks, c, now);
    if u != id {
      SaveKeepsOtherHistories(checks, c, now, u);
    }
  }

  /** The status is recorded as the server answered it, error codes included. */
  lemma ErrorStatusIsRecorded(id: int, urls: UrlRepository.UrlTable, checks: CheckTable, now: nat, page: Document)
    requires UrlRepository.Find(urls, id).Some?
    ensures var fetch := (s: string) => Fetched(503, page);
      AddCheck(id, urls, checks, fetch, now, None).checks.rows[|checks.rows|].statusCode == 503
  {
  }
}

=== FILE: url_check_repository.dfy ===
/**
 * The `url_checks` table: rows in insertion order, the next identity value,
 * and creation times taken from an explicit clock reading `now`.
 */
module UrlCheckRepository {
  import opened Common
  import Sorting

  /** A `UrlCheck` object before it is saved: what the caller fills in. */
  datatype UrlCheck = UrlCheck(statusCode: Int32, title: string, h1: string, description: string, urlId: nat)

  datatype CheckRow = CheckRow(
    id: nat,
    statusCode: Int32,
    title: string,
    h1: string,
    description: string,
    urlId: nat,
    createdAt: nat)

  datatype CheckTable = CheckTable(rows: seq<CheckRow>, nextId: nat)

  const Empty: CheckTable := CheckTable([], 1)

  /** Identity values are positive, increase with insertion, and stay below the next one. */
  predicate Valid(t: CheckTable) {
    && 1 <= t.nextId
    && (forall i :: 0 <= i < |t.rows| ==> 1 <= t.rows[i].id < t.nextId)
    && (forall i, j :: 0 <= i < j < |t.rows| ==> t.rows[i].id < t.rows[j].id)
  }

  /** Creation times never decrease with insertion (the clock was monotone). */
  predicate Chronological(t: CheckTable) {
    forall i, j :: 0 <= i < j < |t.rows| ==> t.rows[i].createdAt <= t.rows[j].createdAt
  }

  datatype Saved = Saved(table: CheckTable, check: CheckRow)

  /** `save`: inserts the caller's fields with the clock's time and hands back the generated key. */
  function Save(t: CheckTable, c: UrlCheck, now: nat): (r: Saved)
    ensures |r.table.rows| == |t.rows| + 1 && r.table.rows[..|t.rows|] == t.rows
    ensures r.table.rows[|t.rows|] == r.check
    ensures r.check.statusCode == c.statusCode && r.check.title == c.title && r.check.h1 == c.h1
    ensures r.check.description == c.description && r.check.urlId == c.urlId
    ensures r.check.createdAt == now
    ensures Valid(t) ==> Valid(r.table) && forall i :: 0 <= i < |t.rows| ==> t.rows[i].id < r.check.id
  {
    var row := CheckRow(t.nextId, c.statusCode, c.title, c.h1, c.description, c.urlId, now);
    Saved(CheckTable(t.rows + [row], t.nextId + 1), row)
  }

  /** `truncateDB`: `TRUNCATE TABLE url_checks RESTART IDENTITY`. */
  function TruncateDB(t: CheckTable): (r: CheckTable)
    ensures Valid(r) && |r.rows| == 0 && r.nextId == 1
    ensures forall c, now :: Save(r, c, now).check.id == 1
  {
    Empty
  }

  // ---------------------------------------------------------------------------
  // findLatestChecks

  /** The url ids that have at least one check. */
  function UrlIds(rows: seq<CheckRow>): set<nat> {
    set i | 0 <= i < |rows| :: rows[i].urlId
  }

  /**
   * `SELECT DISTINCT ON (url_id) * ... ORDER BY url_id DESC, id DESC` read
   * into a map: per url id, the row with the greatest id.
   */
  function LatestChecks(rows: seq<CheckRow>): (m: map<nat, CheckRow>)
    ensures m.Keys == UrlIds(rows)
    ensures forall u :: u in m ==> m[u] in rows && m[u].urlId == u
    ensures forall i :: 0 <= i < |rows| ==> rows[i].urlId in m && rows[i].id <= m[rows[i].urlId].id
  {
    if |rows| == 0 then map[]
    else
      var init := rows[..|rows| - 1];
      var x := rows[|rows| - 1];
      var m := LatestChecks(init);
      assert rows == init + [x];
      LatestStep(init, x, m);
      Keep(m, x)
  }

  /** One more row read: it replaces its url's entry unless that entry has the greater id. */
  function Keep(m: map<nat, CheckRow>, x: CheckRow): map<nat, CheckRow> {
    if x.urlId in m && m[x.urlId].id >= x.id then m else m[x.urlId := x]
  }

  /** What `LatestChecks` promises of `init` carries over to `init + [x]` through `Keep`. */
  lemma LatestStep(init: seq<CheckRow>, x: CheckRow, m: map<nat, CheckRow>)
    requires m.Keys == UrlIds(init)
    requires forall u :: u in m ==> m[u] in init && m[u].urlId == u
    requires forall i :: 0 <= i < |init| ==> init[i].urlId in m && init[i].id <= m[init[i].urlId].id
    ensures var rows, r := init + [x], Keep(m, x);
      && r.Keys == UrlIds(rows)
      && (forall u :: u in r ==> r[u] in rows && r[u].urlId == u)
      && (forall i :: 0 <= i < |rows| ==> rows[i].urlId in r && rows[i].id <= r[rows[i].urlId].id)
  {
    var rows, r := init + [x], Keep(m, x);
    UrlIdsAppend(init, x);
    forall i | 0 <= i < |rows|
      ensures rows[i].urlId in r && rows[i].id <= r[rows[i].urlId].id
    {
      if i < |init| {
        assert rows[i] == init[i];
      }
    }
  }

  lemma UrlIdsAppend(init: seq<CheckRow>, x: CheckRow)
    ensures UrlIds(init + [x]) == UrlIds(init) + {x.urlId}
  {
    var rows := init + [x];
    forall u | u in UrlIds(rows)
      ensures u in UrlIds(init) + {x.urlId}
    {
      var i :| 0 <= i < |rows| && rows[i].urlId == u;
      if i < |init| {
        assert init[i] == rows[i];
      }
    }
    forall u | u in UrlIds(init)
      ensures u in UrlIds(rows)
    {
      var i :| 0 <= i < |init| && init[i].urlId == u;
      assert rows[i] == init[i];
    }
    assert rows[|init|] == x;
  }

  function FindLatestChecks(t: CheckTable): (m: map<nat, CheckRow>)
    ensures m == LatestChecks(t.rows)
  {
    LatestChecks(t.rows)
  }

  // ---------------------------------------------------------------------------
  // findLastCheckByUrlId

  /** The first row under `ORDER BY url_id DESC, id DESC`. */
  function Greatest(rows: seq<CheckRow>): (r: CheckRow)
    requires |rows| > 0
    ensures r in rows
    ensures forall i :: 0 <= i < |rows| ==>
      rows[i].urlId < r.urlId || (rows[i].urlId == r.urlId && rows[i].id <= r.id)
  {
    if |rows| == 1 then rows[0]
    else
      var g := Greatest(rows[1..]);
      assert forall i :: 1 <= i < |rows| ==> rows[i] == rows[1..][i - 1];
      if rows[0].urlId > g.urlId || (rows[0].urlId == g.urlId && rows[0].id >= g.id) then rows[0] else g
  }

  /**
   * `findLastCheckByUrlId` as written: its query has no `WHERE url_id = ?`,
   * so it reads the greatest row of the whole table and relabels it with the
   * caller's id.
   */
  function FindLastCheckByUrlId(t: CheckTable, urlId: nat): (r: Option<CheckRow>)
    ensures r.None? <==> |t.rows| == 0
    ensures r.Some? ==> r.value.urlId == urlId
    ensures r.Some? ==> exists i :: (0 <= i < |t.rows| && r.value == t.rows[i].(urlId := urlId)
      && (forall j :: 0 <= j < |t.rows| ==> t.rows[j].urlId <= t.rows[i].urlId)
      && (forall j :: 0 <= j < |t.rows| && t.rows[j].urlId == t.rows[i].urlId ==> t.rows[j].id <= t.rows[i].id))
  {
    if |t.rows| == 0 then None else Some(Greatest(t.rows).(urlId := urlId))
  }

  /** The checks of one url, in table order. */
  function ChecksOf(rows: seq<CheckRow>, urlId: nat): (r: seq<CheckRow>)
    ensures forall i :: 0 <= i < |r| ==> r[i] in rows && r[i].urlId == urlId
    ensures forall i :: 0 <= i < |rows| && rows[i].urlId == urlId ==> rows[i] in r
    ensures |r| == 0 <==> forall i :: 0 <= i < |rows| ==> rows[i].urlId != urlId
  {
    if |rows| == 0 then []
    else
      var rest := ChecksOf(rows[1..], urlId);
      assert forall i :: 1 <= i < |rows| ==> rows[i] == rows[1..][i - 1];
      if rows[0].urlId == urlId then [rows[0]] + rest else rest
  }

  /** The same lookup with the `WHERE url_id = ?` the method's name promises. */
  function FindLastCheckForUrl(t: CheckTable, urlId: nat): (r: Option<CheckRow>)
    ensures r.None? <==> forall i :: 0 <= i < |t.rows| ==> t.rows[i].urlId != urlId
    ensures r.Some? ==> r.value in t.rows && r.value.urlId == urlId
    ensures r.Some? ==> forall i :: 0 <= i < |t.rows| && t.rows[i].urlId == urlId ==> t.rows[i].id <= r.value.id
  {
    var mine := ChecksOf(t.rows, urlId);
    if |mine| == 0 then None
    else
      var g := Greatest(mine);
      assert forall i :: 0 <= i < |t.rows| && t.rows[i].urlId == urlId ==> t.rows[i].id <= g.id by {
        forall i | 0 <= i < |t.rows| && t.rows[i].urlId == urlId
          ensures t.rows[i].id <= g.id
        {
          var k :| 0 <= k < |mine| && mine[k] == t.rows[i];
        }
      }
      Some(g.(urlId := urlId))
  }

  // ---------------------------------------------------------------------------
  // getAllChecks

  /** The sort key of `getAllChecks`. */
  function CreatedAt(c: CheckRow): int {
    c.createdAt
  }

  /** `getAllChecks`: the checks of one url, `ORDER BY created_at DESC`. */
  function GetAllChecks(t: CheckTable, urlId: nat): (r: seq<CheckRow>)
    ensures multiset(r) == multiset(ChecksOf(t.rows, urlId))
    ensures forall c :: c in r <==> c in t.rows && c.urlId == urlId
    ensures forall i, j :: 0 <= i < j < |r| ==> r[i].createdAt >= r[j].createdAt
  {
    var mine := ChecksOf(t.rows, urlId);
    var r := Sorting.SortDesc(mine, CreatedAt);
    forall c ensures c in r <==> c in t.rows && c.urlId == urlId {
      assert c in r <==> c in multiset(r);
      assert c in mine <==> c in multiset(mine);
      ChecksOfMembers(t.rows, urlId, c);
    }
    r
  }

  /** A row is among a url's checks exactly when the table holds it under that url. */
  lemma ChecksOfMembers(rows: seq<CheckRow>, urlId: nat, c: CheckRow)
    ensures c in ChecksOf(rows, urlId) <==> c in rows && c.urlId == urlId
  {
    var mine := ChecksOf(rows, urlId);
    if c in mine {
      var i :| 0 <= i < |mine| && mine[i] == c;
    }
    if c in rows {
      var i :| 0 <= i < |rows| && rows[i] == c;
    }
  }

  // ---------------------------------------------------------------------------
  // Properties

  /** Appending a row to the table touches only that row's url's list of checks. */
  lemma {:induction false} ChecksOfAppend(rows: seq<CheckRow>, x: CheckRow, urlId: nat)
    ensures ChecksOf(rows + [x], urlId) == ChecksOf(rows, urlId) + (if x.urlId == urlId then [x] else [])
  {
    if |rows| == 0 {
      assert rows + [x] == [x];
    } else {
      var s := rows + [x];
      assert s[0] == rows[0] && s[1..] == rows[1..] + [x];
      ChecksOfAppend(rows[1..], x, urlId);
    }
  }

  /** Saving a check adds it to its own url's history... */
  lemma SaveAddsToOwnHistory(checks: CheckTable, c: UrlCheck, now: nat)
    ensures var saved := Save(checks, c, now);
      && |GetAllChecks(saved.table, c.urlId)| == |GetAllChecks(checks, c.urlId)| + 1
      && saved.check in GetAllChecks(saved.table, c.urlId)
  {
    var saved := Save(checks, c, now);
    var x := saved.check;
    assert saved.table.rows == checks.rows + [x];
    ChecksOfAppend(checks.rows, x, c.urlId);
    var mine := ChecksOf(checks.rows, c.urlId);
    assert ChecksOf(saved.table.rows, c.urlId) == mine + [x];
    var before, after := GetAllChecks(checks, c.urlId), GetAllChecks(saved.table, c.urlId);
    assert multiset(after) == multiset(mine + [x]) == multiset(mine) + multiset{x};
    assert |after| == |multiset(after)|;
    assert |before| == |multiset(before)| == |multiset(mine)|;
  }

  /** ...and to no other url's. */
  lemma SaveKeepsOtherHistories(checks: CheckTable, c: UrlCheck, now: nat, u: nat)
    requires u != c.urlId
    ensures GetAllChecks(Save(checks, c, now).table, u) == GetAllChecks(checks, u)
  {
    var saved := Save(checks, c, now);
    assert saved.table.rows == checks.rows + [saved.check];
    ChecksOfAppend(checks.rows, saved.check, u);
    assert ChecksOf(saved.table.rows, u) == ChecksOf(checks.rows, u);
  }

  /** In a valid table two rows with the same id are the same row. */
  lemma IdsIdentifyRows(t: CheckTable, a: CheckRow, b: CheckRow)
    requires Valid(t) && a in t.rows && b in t.rows && a.id == b.id
    ensures a == b
  {
    var i :| 0 <= i < |t.rows| && t.rows[i] == a;
    var j :| 0 <= j < |t.rows| && t.rows[j] == b;
    if i < j {
    } else if j < i {
    }
  }

  /** With the missing filter restored, the last check of a url is its entry in `findLatestChecks`. */
  lemma LastCheckAgreesWithLatest(t: CheckTable, urlId: nat)
    requires Valid(t)
    ensures var m := FindLatestChecks(t);
      FindLastCheckForUrl(t, urlId) == if urlId in m then Some(m[urlId]) else None
  {
    var m := FindLatestChecks(t);
    var r := FindLastCheckForUrl(t, urlId);
    if urlId in m {
      var i :| 0 <= i < |t.rows| && t.rows[i] == m[urlId];
      assert r.Some?;
      var j :| 0 <= j < |t.rows| && t.rows[j] == r.value;
      assert r.value.id <= m[urlId].id;
      assert m[urlId].id <= r.value.id;
      IdsIdentifyRows(t, r.value, m[urlId]);
    } else {
      assert urlId !in UrlIds(t.rows);
    }
  }

  /** Two checks of url 1 and 2: asking for url 1's last check returns url 2's, relabelled as url 1's. */
  lemma LastCheckIgnoresUrlId()
    ensures var a := CheckRow(1, 200, "Alpha", "", "", 1, 10);
      var b := CheckRow(2, 404, "Beta", "", "", 2, 20);
      var t := CheckTable([a, b], 3);
      && FindLastCheckByUrlId(t, 1) == Some(CheckRow(2, 404, "Beta", "", "", 1, 20))
      && FindLastCheckForUrl(t, 1) == Some(a)
  {
    var a := CheckRow(1, 200, "Alpha", "", "", 1, 10);
    var b := CheckRow(2, 404, "Beta", "", "", 2, 20);
    var t := CheckTable([a, b], 3);
    assert Greatest(t.rows) == b;
  }

  /** The latest check (greatest id) of each url is also one of its newest by creation time when the clock is monotone. */
  lemma LatestIsNewest(t: CheckTable, u: nat)
    requires Valid(t) && Chronological(t)
    requires exists i :: 0 <= i < |t.rows| && t.rows[i].urlId == u
    ensures u in FindLatestChecks(t)
    ensures forall i :: 0 <= i < |t.rows| && t.rows[i].urlId == u ==>
      t.rows[i].createdAt <= FindLatestChecks(t)[u].createdAt
  {
    var m := FindLatestChecks(t);
    var latest := m[u];
    var k :| 0 <= k < |t.rows| && t.rows[k] == latest;
    forall i | 0 <= i < |t.rows| && t.rows[i].urlId == u
      ensures t.rows[i].createdAt <= latest.createdAt
    {
      var row := t.rows[i];
      assert row.urlId in m && row.id <= m[row.urlId].id;
      IdsFollowTableOrder(t, i, k);
      if i < k {
        assert row.createdAt <= t.rows[k].createdAt;
      }
    }
  }

  /** In a valid table a smaller or equal id sits no later in the table. */
  lemma IdsFollowTableOrder(t: CheckTable, i: nat, k: nat)
    requires Valid(t) && i < |t.rows| && k < |t.rows|
    requires t.rows[i].id <= t.rows[k].id
    ensures i <= k
  {
  }

  /** Saving a check with a clock reading no earlier than any stored one keeps the table chronological. */
  lemma SaveKeepsChronological(t: CheckTable, c: UrlCheck, now: nat)
    requires Chronological(t)
    requires forall i :: 0 <= i < |t.rows| ==> t.rows[i].createdAt <= now
    ensures Chronological(Save(t, c, now).table)
  {
  }

  /** After a save into a valid table, the saved check is its url's latest and other urls' latest are untouched. */
  lemma SavedCheckIsLatest(t: CheckTable, c: UrlCheck, now: nat)
    requires Valid(t)
    ensures var s := Save(t, c, now);
      var m := FindLatestChecks(s.table);
      && c.urlId in m && m[c.urlId] == s.check
      && forall u :: u in m && u != c.urlId ==> u in FindLatestChecks(t) && m[u] == FindLatestChecks(t)[u]
  {
    var s := Save(t, c, now);
    assert s.table.rows[..|t.rows|] == t.rows;
  }
}

=== FILE: url_controller.dfy ===
/**
 * `UrlController`: the form handler that accepts an address and stores its
 * canonical name, the list page with its page numbers, and the page of one
 * address with its checks. Handlers return their effect (new table, flash,
 * redirect target or page contents) instead of writing to a request context.
 */
module UrlController {
  import opened Common
  import opened UrlPolicy
  import opened UrlRepository
  import UrlCheckRepository

  const EMPTY_INPUT := "URL не может быть пустым"
  const INVALID_URL := "Некорректный URL"
  const ALREADY_EXISTS := "Страница уже существует"
  const ADDED := "Страница успешно добавлена"

  // ---------------------------------------------------------------------------
  // createUrl

  /**
   * POST of the address form: blank input and malformed addresses go back to
   * "/" with a danger flash; a canonical name already stored is reported as a
   * warning; a new one is saved. Both of the latter redirect to "/urls".
   */
  function CreateUrl(form: Option<string>, parse: Parser, urls: UrlTable, now: nat): (r: Handled<UrlTable>)
    ensures (form.None? || form.value == "") ==> r == Handled(urls, "/", Flash(EMPTY_INPUT, "danger"))
    ensures CanonicalName(form, parse).Malformed? ==> r == Handled(urls, "/", Flash(INVALID_URL, "danger"))
    ensures r.location == "/" <==> !CanonicalName(form, parse).Accepted?
    ensures r.location == "/urls" && HasName(urls, CanonicalName(form, parse).name)
      ==> r == Handled(urls, "/urls", Flash(ALREADY_EXISTS, "warning"))
    ensures r.location == "/urls" && !HasName(urls, CanonicalName(form, parse).name) ==>
      && r.flash == Flash(ADDED, "success")
      && |r.state.rows| == |urls.rows| + 1 && r.state.rows[..|urls.rows|] == urls.rows
      && r.state.rows[|urls.rows|].name == CanonicalName(form, parse).name
      && r.state.rows[|urls.rows|].createdAt == now
    ensures r.state == urls || (|r.state.rows| == |urls.rows| + 1 && r.state.rows[..|urls.rows|] == urls.rows)
  {
    match CanonicalName(form, parse)
    case Blank => Handled(urls, "/", Flash(EMPTY_INPUT, "danger"))
    case Malformed => Handled(urls, "/", Flash(INVALID_URL, "danger"))
    case Accepted(name) =>
      if FindByName(urls, name).Some? then Handled(urls, "/urls", Flash(ALREADY_EXISTS, "warning"))
      else
        var saved := Save(urls, Url(None, name, Some(now)), now);
        Handled(saved.table, "/urls", Flash(ADDED, "success"))
  }

  /** The handler keeps identities valid and, on a table without duplicates, adds none. */
  lemma CreateUrlKeepsTableSound(form: Option<string>, parse: Parser, urls: UrlTable, now: nat)
    requires Valid(urls) && NamesUnique(urls)
    ensures Valid(CreateUrl(form, parse, urls, now).state)
    ensures NamesUnique(CreateUrl(form, parse, urls, now).state)
  {
    var v := CanonicalName(form, parse);
    if v.Accepted? && FindByName(urls, v.name).None? {
      SaveFreshNameKeepsNamesUnique(urls, Url(None, v.name, Some(now)), now);
    }
  }

  /** Submitting the same text twice: the second submission saves nothing and warns. */
  lemma SecondSubmissionIsDuplicate(form: Option<string>, parse: Parser, urls: UrlTable, now: nat, later: nat)
    requires CreateUrl(form, parse, urls, now).location == "/urls"
    ensures var once := CreateUrl(form, parse, urls, now).state;
      CreateUrl(form, parse, once, later) == Handled(once, "/urls", Flash(ALREADY_EXISTS, "warning"))
  {
    var name := CanonicalName(form, parse).name;
    var once := CreateUrl(form, parse, urls, now).state;
    if !HasName(urls, name) {
      SavedNameIsFound(urls, Url(None, name, Some(now)), now);
    }
    assert HasName(once, name);
  }

  /** Two spellings of one site (host case, default port) land on one row: the second is a duplicate. */
  lemma SameSiteIsDuplicate(a: string, b: string, parse: Parser, urls: UrlTable, now: nat, later: nat)
    requires CanonicalName(Some(a), parse).Accepted? && CanonicalName(Some(b), parse).Accepted?
    requires var u, v := parse(WithScheme(a)).value, parse(WithScheme(b)).value;
      Splittable(u) && Splittable(v) && SameSite(u, v)
    ensures var once := CreateUrl(Some(a), parse, urls, now).state;
      CreateUrl(Some(b), parse, once, later) == Handled(once, "/urls", Flash(ALREADY_EXISTS, "warning"))
  {
    var u, v := parse(WithScheme(a)).value, parse(WithScheme(b)).value;
    SameNameIffSameSite(u, v);
    SecondSubmissionIsDuplicate(Some(a), parse, urls, now, later);
  }

  /** Submitting the stored canonical name itself is recognised as the same address. */
  lemma CanonicalResubmissionIsDuplicate(form: Option<string>, parse: Parser, urls: UrlTable, now: nat, later: nat)
    requires ParsesWellShaped(parse) && ReadsBackCanonical(parse)
    requires CanonicalName(form, parse).Accepted?
    ensures var once := CreateUrl(form, parse, urls, now).state;
      var stored := Some(CanonicalName(form, parse).name);
      CreateUrl(stored, parse, once, later) == Handled(once, "/urls", Flash(ALREADY_EXISTS, "warning"))
  {
    var stored := Some(CanonicalName(form, parse).name);
    CanonicalNameIdempotent(form, parse);
    SecondSubmissionIsDuplicate(form, parse, urls, now, later);
  }

  // ---------------------------------------------------------------------------
  // showUrls

  /** `IntStream.range(lo, hi)`: lo, lo + 1, ..., hi - 1, empty when hi <= lo. */
  function Range(lo: int, hi: int): (r: seq<int>)
    ensures |r| == if lo < hi then hi - lo else 0
    ensures forall i :: 0 <= i < |r| ==> r[i] == lo + i
  {
    if lo < hi then seq(hi - lo, i requires 0 <= i < hi - lo => lo + i) else []
  }

  datatype UrlsPage = UrlsPage(
    urls: seq<UrlRow>,
    latest: map<nat, UrlCheckRepository.CheckRow>,
    pages: seq<int>,
    currentPage: Int32)

  /**
   * GET "/urls". `urls` is the list the repository hands back (its `getUrls`
   * is not part of this model) and `page` the already-parsed query parameter.
   * `page - 1` and `lastPage`, `currentPage` are Java `int` arithmetic.
   */
  function ShowUrls(urls: seq<UrlRow>, checks: UrlCheckRepository.CheckTable, page: Option<Int32>): (r: UrlsPage)
    requires |urls| <= INT_MAX
    ensures r.urls == urls && r.latest == UrlCheckRepository.FindLatestChecks(checks)
    ensures |urls| < INT_MAX ==> |r.pages| == |urls| && forall i :: 0 <= i < |urls| ==> r.pages[i] == i + 1
    ensures |urls| == INT_MAX ==> r.pages == []
    ensures r.currentPage == if page.None? then 1 else page.value
  {
    var p := Wrap32((if page.None? then 1 else page.value) - 1);
    var lastPage := Wrap32(|urls| + 1);
    var currentPage := Wrap32(p + 1);
    assert page.Some? && page.value == INT_MIN ==> p == INT_MAX;
    UrlsPage(urls, UrlCheckRepository.FindLatestChecks(checks), Range(1, lastPage), currentPage)
  }

  /** The page numbers are exactly 1..n, one per listed address, for every list the handler can hold. */
  lemma PagesNumberTheUrls(urls: seq<UrlRow>, checks: UrlCheckRepository.CheckTable, page: Option<Int32>, k: int)
    requires |urls| < INT_MAX
    ensures k in ShowUrls(urls, checks, page).pages <==> 1 <= k <= |urls|
  {
    var pages := ShowUrls(urls, checks, page).pages;
    if 1 <= k <= |urls| {
      assert pages[k - 1] == k;
    }
  }

  // ---------------------------------------------------------------------------
  // showUrlById

  datatype UrlPage = NotFound | UrlShown(url: UrlRow, checks: seq<UrlCheckRepository.CheckRow>)

  /**
   * GET "/urls/{id}". The repository's `findById` is not part of this model;
   * it is taken to behave as `find` does.
   */
  function ShowUrlById(urls: UrlTable, checks: UrlCheckRepository.CheckTable, id: int): (r: UrlPage)
    ensures r.NotFound? <==> forall i :: 0 <= i < |urls.rows| ==> urls.rows[i].id != id
    ensures r.UrlShown? ==> r.url in urls.rows && r.url.id == id
    ensures r.UrlShown? ==> forall c :: c in r.checks <==> c in checks.rows && c.urlId == id
    ensures r.UrlShown? ==> multiset(r.checks) == multiset(UrlCheckRepository.ChecksOf(checks.rows, id))
    ensures r.UrlShown? ==> forall i, j :: 0 <= i < j < |r.checks| ==> r.checks[i].createdAt >= r.checks[j].createdAt
  {
    match Find(urls, id)
    case None => NotFound
    case Some(url) => UrlShown(url, UrlCheckRepository.GetAllChecks(checks, url.id))
  }
}

=== FILE: url_policy.dfy ===
/**
 * How a submitted address becomes the name a `urls` row is keyed by.
 *
 * Two rules coexist in the application and are kept apart here:
 *  - `UrlController.createUrl` prepends `http://` to bare domains and keys the
 *    row by `protocol://lowercase(host)[:port]`, dropping the default port of
 *    http and https (`NormalizeUrl`, `CanonicalName`);
 *  - the inline POST `/urls` handler of `App` keys it by
 *    `protocol://authority`, verbatim (`AppName`).
 *
 * `java.net.URI`/`URL` parsing is not modelled: a `Parser` is any partial
 * function from text to a `ParsedUrl`, `None` standing for the
 * `URISyntaxException`, `IllegalArgumentException` or `MalformedURLException`
 * it throws.
 */
module UrlPolicy {
  import opened Common

  /** `URL.getPort()`: -1 when no port was written. */
  type Port = p: int | -1 <= p <= INT_MAX

  /** The accessors of a `java.net.URL` the handlers read. */
  datatype ParsedUrl = ParsedUrl(
    protocol: string,
    host: string,
    port: Port,
    authority: Option<string>,
    path: string,
    query: Option<string>,
    fragment: Option<string>)

  type Parser = string -> Option<ParsedUrl>

  // ---------------------------------------------------------------------------
  // The two regular expressions of createUrl

  /** Characters Java's `.` does not match (no DOTALL, no UNIX_LINES). */
  predicate IsLineTerminator(c: char) {
    c == '\n' || c == '\r' || c as int == 0x85 || c as int == 0x2028 || c as int == 0x2029
  }

  predicate NoLineTerminator(s: string) {
    forall i :: 0 <= i < |s| ==> !IsLineTerminator(s[i])
  }

  /** The class `[a-zA-Z0-9.-]`. */
  predicate IsDomainChar(c: char) {
    IsAsciiLetter(c) || IsDigit(c) || c == '.' || c == '-'
  }

  predicate AllDomainChars(s: string) {
    forall i :: 0 <= i < |s| ==> IsDomainChar(s[i])
  }

  predicate AllLetters(s: string) {
    forall i :: 0 <= i < |s| ==> IsAsciiLetter(s[i])
  }

  /** `s.matches("^https?://.*")`: the whole string must match. */
  predicate MatchesSchemePattern(s: string) {
    || (|s| >= 7 && s[..7] == "http://" && NoLineTerminator(s[7..]))
    || (|s| >= 8 && s[..8] == "https://" && NoLineTerminator(s[8..]))
  }

  /** The language of `^[a-zA-Z0-9.-]+\.[a-zA-Z]{2,}.*`, split as the regex splits it. */
  ghost predicate DomainRegex(s: string) {
    exists i, j :: 1 <= i && i + 3 <= j <= |s| && AllDomainChars(s[..i]) && s[i] == '.'
                   && AllLetters(s[i + 1..j]) && NoLineTerminator(s[j..])
  }

  /** A '.' at `i` that the regex can use: a non-empty domain run before it, two letters after it. */
  predicate DotAt(s: string, i: int) {
    1 <= i && i + 2 < |s| && AllDomainChars(s[..i]) && s[i] == '.'
    && IsAsciiLetter(s[i + 1]) && IsAsciiLetter(s[i + 2])
  }

  /** Scans the run of domain characters from `k` for a usable '.'. */
  predicate DotFrom(s: string, k: nat)
    decreases |s| - k
  {
    if k >= |s| || !IsDomainChar(s[k]) then false
    else if 1 <= k && s[k] == '.' && k + 2 < |s| && IsAsciiLetter(s[k + 1]) && IsAsciiLetter(s[k + 2]) then true
    else DotFrom(s, k + 1)
  }

  /** The matcher createUrl runs on input that does not start with a scheme. */
  predicate LooksLikeDomain(s: string) {
    NoLineTerminator(s) && DotFrom(s, 0)
  }

  lemma {:induction false} DotFromFindsDot(s: string, k: nat)
    requires k <= |s| && AllDomainChars(s[..k])
    ensures DotFrom(s, k) <==> exists i :: k <= i && DotAt(s, i)
    decreases |s| - k
  {
    if k >= |s| {
    } else if !IsDomainChar(s[k]) {
      forall i | k < i < |s|
        ensures !DotAt(s, i)
      {
        assert s[..i][k] == s[k];
      }
    } else if 1 <= k && s[k] == '.' && k + 2 < |s| && IsAsciiLetter(s[k + 1]) && IsAsciiLetter(s[k + 2]) {
      assert DotAt(s, k);
    } else {
      assert AllDomainChars(s[..k + 1]) by {
        assert forall m :: 0 <= m < k ==> s[..k + 1][m] == s[..k][m];
      }
      DotFromFindsDot(s, k + 1);
      assert !DotAt(s, k);
    }
  }

  /** The scanner accepts exactly the strings the regular expression matches. */
  lemma LooksLikeDomainIsRegex(s: string)
    ensures LooksLikeDomain(s) <==> DomainRegex(s)
  {
    DotFromFindsDot(s, 0);
    if LooksLikeDomain(s) {
      var i :| 0 <= i && DotAt(s, i);
      RegexFromDot(s, i);
    }
    if DomainRegex(s) {
      var i, j :| 1 <= i && i + 3 <= j <= |s| && AllDomainChars(s[..i]) && s[i] == '.'
                  && AllLetters(s[i + 1..j]) && NoLineTerminator(s[j..]);
      DotFromRegex(s, i, j);
    }
  }

  /** A usable '.' in a line without terminators is a regex match ending its letter run after two letters. */
  lemma RegexFromDot(s: string, i: int)
    requires NoLineTerminator(s) && DotAt(s, i)
    ensures DomainRegex(s)
  {
    var j := i + 3;
    assert AllLetters(s[i + 1..j]);
    assert NoLineTerminator(s[j..]) by {
      assert forall m :: 0 <= m < |s| - j ==> s[j..][m] == s[j + m];
    }
  }

  /** A regex match has a usable '.' at its dot, and no line terminator anywhere. */
  lemma DotFromRegex(s: string, i: int, j: int)
    requires 1 <= i && i + 3 <= j <= |s| && AllDomainChars(s[..i]) && s[i] == '.'
    requires AllLetters(s[i + 1..j]) && NoLineTerminator(s[j..])
    ensures DotAt(s, i) && NoLineTerminator(s)
  {
    assert s[i + 1] == s[i + 1..j][0] && s[i + 2] == s[i + 1..j][1];
    forall m | 0 <= m < |s|
      ensures !IsLineTerminator(s[m])
    {
      if m < i {
        assert s[..i][m] == s[m];
      } else if i < m < j {
        assert s[i + 1..j][m - i - 1] == s[m];
      } else if j <= m {
        assert s[j..][m - j] == s[m];
      }
    }
  }

  /** createUrl's first step: bare domains get `http://`. */
  function WithScheme(s: string): string {
    if !MatchesSchemePattern(s) && LooksLikeDomain(s) then "http://" + s else s
  }

  /** Input already spelling http(s) stays as it is; anything else gains `http://` exactly when it matches the domain pattern. */
  lemma WithSchemeRule(s: string)
    ensures MatchesSchemePattern(s) ==> WithScheme(s) == s
    ensures !MatchesSchemePattern(s) && DomainRegex(s) ==> WithScheme(s) == "http://" + s
    ensures !MatchesSchemePattern(s) && !DomainRegex(s) ==> WithScheme(s) == s
  {
    LooksLikeDomainIsRegex(s);
  }

  // ---------------------------------------------------------------------------
  // UrlController.normalizeUrl

  predicate IsDefaultPort(protocol: string, port: int) {
    (protocol == "http" && port == 80) || (protocol == "https" && port == 443)
  }

  function NormalizeUrl(u: ParsedUrl): (r: string)
    ensures |r| >= |u.protocol| + 3 + |u.host|
    ensures r[..|u.protocol| + 3] == u.protocol + "://"
  {
    var base := u.protocol + "://" + LowerAscii(u.host);
    if u.port != -1 && !IsDefaultPort(u.protocol, u.port) then base + ":" + NatToDecimal(u.port) else base
  }

  /** The port a canonical name spells out: none when unwritten or the protocol's default. */
  function KeptPort(u: ParsedUrl): Option<nat> {
    if u.port == -1 || IsDefaultPort(u.protocol, u.port) then None else Some(u.port as nat)
  }

  /** Two records name the same site when protocol, case-folded host and kept port agree. */
  predicate SameSite(u: ParsedUrl, v: ParsedUrl) {
    u.protocol == v.protocol && LowerAscii(u.host) == LowerAscii(v.host) && KeptPort(u) == KeptPort(v)
  }

  /** The record a canonical name stands for: host lower-cased, default port forgotten. */
  function Canonicalized(u: ParsedUrl): (v: ParsedUrl)
    ensures SameSite(u, v)
  {
    LowerAsciiIdempotent(u.host);
    u.(host := LowerAscii(u.host), port := if KeptPort(u).None? then -1 else u.port)
  }

  // ---------------------------------------------------------------------------
  // Reading a canonical name back

  datatype Site = Site(protocol: string, host: string, port: Option<nat>)

  /**
   * The text ends in ':' and, after its last ':', a port as `Integer.toString`
   * spells it: one or more digits, with no leading zero unless the port is 0.
   */
  predicate HasPortSuffix(s: string) {
    match LastIndexOf(s, ':')
    case None => false
    case Some(k) => k + 1 < |s| && AllDigits(s[k + 1..]) && (s[k + 1] != '0' || k + 2 == |s|)
  }

  /** Splits `protocol://host[:port]` at the first ':' and at a trailing `:digits`. */
  function SplitCanonical(s: string): Option<Site> {
    match IndexOf(s, ':')
    case None => None
    case Some(i) =>
      if i + 3 <= |s| && s[i..i + 3] == "://" then
        var rest := s[i + 3..];
        if HasPortSuffix(rest) then
          var k := LastIndexOf(rest, ':').value;
          Some(Site(s[..i], rest[..k], Some(DecimalToNat(rest[k + 1..]))))
        else Some(Site(s[..i], rest, None))
      else None
  }

  /** Records whose parts read back unambiguously: a scheme without ':' and a host without a port suffix. */
  predicate Splittable(u: ParsedUrl) {
    (forall i :: 0 <= i < |u.protocol| ==> u.protocol[i] != ':') && !HasPortSuffix(u.host)
  }

  lemma LowerKeepsPortSuffix(h: string)
    ensures HasPortSuffix(LowerAscii(h)) == HasPortSuffix(h)
  {
    var l := LowerAscii(h);
    assert forall i :: 0 <= i < |h| ==> (l[i] == ':' <==> h[i] == ':');
    assert forall i :: 0 <= i < |h| ==> (IsDigit(l[i]) <==> IsDigit(h[i]));
    var a, b := LastIndexOf(l, ':'), LastIndexOf(h, ':');
    if a.Some? && b.Some? {
      if a.value < b.value {
      } else if b.value < a.value {
      } else {
        var k := a.value;
        if k + 1 < |h| {
          assert AllDigits(l[k + 1..]) <==> AllDigits(h[k + 1..]) by {
            assert forall i :: k + 1 <= i < |h| ==> l[k + 1..][i - k - 1] == l[i] && h[k + 1..][i - k - 1] == h[i];
          }
        }
      }
    }
  }

  lemma PrefixSplit(p: string, rest: string, s: string)
    requires forall i :: 0 <= i < |p| ==> p[i] != ':'
    requires s == p + "://" + rest
    ensures IndexOf(s, ':') == Some(|p|)
    ensures s[|p|..|p| + 3] == "://"
    ensures s[..|p|] == p && s[|p| + 3..] == rest
  {
    assert s[|p|] == ':';
    assert forall i :: 0 <= i < |p| ==> s[i] == p[i];
    assert s[..|p|] == p && s[|p| + 3..] == rest;
  }

  lemma LastColonAt(s: string, k: nat)
    requires k < |s| && s[k] == ':' && forall i :: k < i < |s| ==> s[i] != ':'
    ensures LastIndexOf(s, ':') == Some(k)
  {
    var r := LastIndexOf(s, ':');
    if r.value < k {
    } else if r.value > k {
    }
  }

  lemma PortSuffixSplit(h: string, d: string, s: string)
    requires |d| >= 1 && AllDigits(d) && (d[0] != '0' || |d| == 1)
    requires s == h + ":" + d
    ensures LastIndexOf(s, ':') == Some(|h|)
    ensures HasPortSuffix(s)
    ensures s[..|h|] == h && s[|h| + 1..] == d
  {
    assert s[|h|] == ':';
    assert s[|h| + 1..] == d;
    assert forall i :: |h| < i < |s| ==> s[i] == d[i - |h| - 1];
    LastColonAt(s, |h|);
  }

  /** A canonical name reads back as protocol, lower-cased host and exactly the non-default written port. */
  lemma NormalizeRoundTrip(u: ParsedUrl)
    requires Splittable(u)
    ensures SplitCanonical(NormalizeUrl(u)).Some?
    ensures var d := SplitCanonical(NormalizeUrl(u)).value;
      && d.protocol == u.protocol
      && d.host == LowerAscii(u.host)
      && (d.port.None? <==> (u.port == -1 || IsDefaultPort(u.protocol, u.port)))
      && (d.port.Some? ==> d.port.value == u.port)
  {
    var p, l, n := u.protocol, LowerAscii(u.host), NormalizeUrl(u);
    if u.port != -1 && !IsDefaultPort(p, u.port) {
      var d := NatToDecimal(u.port);
      assert d[0] == '0' ==> u.port == 0 && d == "0";
      assert n == p + "://" + (l + ":" + d);
      SplitWithPort(p, l, d, n);
      DecimalRoundTrip(u.port);
    } else {
      assert n == p + "://" + l;
      LowerKeepsPortSuffix(u.host);
      SplitWithoutPort(p, l, n);
    }
  }

  /** A name with a port suffix splits into protocol, host and that port. */
  lemma SplitWithPort(p: string, h: string, d: string, n: string)
    requires forall i :: 0 <= i < |p| ==> p[i] != ':'
    requires |d| >= 1 && AllDigits(d) && (d[0] != '0' || |d| == 1)
    requires n == p + "://" + (h + ":" + d)
    ensures SplitCanonical(n) == Some(Site(p, h, Some(DecimalToNat(d))))
  {
    var rest := h + ":" + d;
    PrefixSplit(p, rest, n);
    PortSuffixSplit(h, d, rest);
  }

  /** A name without a port suffix splits into protocol and host alone. */
  lemma SplitWithoutPort(p: string, h: string, n: string)
    requires forall i :: 0 <= i < |p| ==> p[i] != ':'
    requires !HasPortSuffix(h)
    requires n == p + "://" + h
    ensures SplitCanonical(n) == Some(Site(p, h, None))
  {
    PrefixSplit(p, h, n);
  }

  /** Deduplication key: two records get the same canonical name exactly when they name the same site. */
  lemma SameNameIffSameSite(u: ParsedUrl, v: ParsedUrl)
    requires Splittable(u) && Splittable(v)
    ensures NormalizeUrl(u) == NormalizeUrl(v) <==> SameSite(u, v)
  {
    if NormalizeUrl(u) == NormalizeUrl(v) {
      NormalizeRoundTrip(u);
      NormalizeRoundTrip(v);
    }
  }

  /** Normalizing the canonical record gives the same name: case and default ports are already gone. */
  lemma NormalizeCanonicalized(u: ParsedUrl)
    ensures NormalizeUrl(Canonicalized(u)) == NormalizeUrl(u)
    ensures Canonicalized(Canonicalized(u)) == Canonicalized(u)
  {
    LowerAsciiIdempotent(u.host);
  }

  /** Neither key looks at path, query or fragment. */
  lemma NamesIgnoreLocation(u: ParsedUrl, path: string, query: Option<string>, fragment: Option<string>)
    ensures NormalizeUrl(u.(path := path, query := query, fragment := fragment)) == NormalizeUrl(u)
    ensures AppName(u.(path := path, query := query, fragment := fragment)) == AppName(u)
  {
  }

  // ---------------------------------------------------------------------------
  // UrlController.createUrl, up to the table lookup

  datatype Verdict = Blank | Malformed | Accepted(name: string)

  /** Null or empty input is blank; a parse failure or an empty host is malformed. */
  function CanonicalName(input: Option<string>, parse: Parser): (r: Verdict)
    ensures (input.None? || input.value == "") <==> r.Blank?
    ensures r.Accepted? ==> exists u :: parse(WithScheme(input.value)) == Some(u) && |u.host| > 0 && r.name == NormalizeUrl(u)
    ensures (input.Some? && input.value != "" && parse(WithScheme(input.value)).Some?
      && |parse(WithScheme(input.value)).value.host| > 0) ==> r == Accepted(NormalizeUrl(parse(WithScheme(input.value)).value))
  {
    match input
    case None => Blank
    case Some(s) =>
      if |s| == 0 then Blank
      else match parse(WithScheme(s))
        case None => Malformed
        case Some(u) => if |u.host| == 0 then Malformed else Accepted(NormalizeUrl(u))
  }

  /** The records `URL` hands back: a lower-case letter scheme (it lower-cases protocols) and a real host. */
  predicate WellShaped(u: ParsedUrl) {
    && |u.protocol| > 0
    && (forall i :: 0 <= i < |u.protocol| ==> IsAsciiLower(u.protocol[i]))
    && |u.host| > 0
    && !HasPortSuffix(u.host)
  }

  /** Every record the parser returns with a host is well shaped. */
  ghost predicate ParsesWellShaped(parse: Parser) {
    forall s :: parse(s).Some? && |parse(s).value.host| > 0 ==> WellShaped(parse(s).value)
  }

  /**
   * The parser reads the canonical name of any record it returned with a
   * host back as the same site.
   */
  ghost predicate ReadsBackCanonical(parse: Parser) {
    forall s :: ReadsBackAt(parse, s)
  }

  /** The read-back of `ReadsBackCanonical` for the one input `s`. */
  predicate ReadsBackAt(parse: Parser, s: string) {
    parse(s).Some? && |parse(s).value.host| > 0 ==>
      parse(NormalizeUrl(parse(s).value)).Some? && SameSite(parse(NormalizeUrl(parse(s).value)).value, parse(s).value)
  }

  lemma SchemeNameNeedsNoPrefix(p: string, rest: string, s: string)
    requires |p| > 0 && forall i :: 0 <= i < |p| ==> IsAsciiLower(p[i])
    requires s == p + "://" + rest
    ensures WithScheme(s) == s
  {
    DotFromFindsDot(s, 0);
    forall i | 0 <= i
      ensures !DotAt(s, i)
    {
      if 1 <= i && i + 2 < |s| {
        if i < |p| {
          assert s[i] == p[i];
        } else if i == |p| {
          assert s[i] == ':';
        } else {
          assert s[..i][|p|] == ':';
        }
      }
    }
  }

  /** Submitting a name the controller produced yields that same name again. */
  lemma CanonicalNameIdempotent(input: Option<string>, parse: Parser)
    requires ParsesWellShaped(parse) && ReadsBackCanonical(parse)
    requires CanonicalName(input, parse).Accepted?
    ensures CanonicalName(Some(CanonicalName(input, parse).name), parse) == CanonicalName(input, parse)
  {
    var u := parse(WithScheme(input.value)).value;
    assert ReadsBackAt(parse, WithScheme(input.value));
    assert WellShaped(u);
    var n := NormalizeUrl(u);
    assert n == u.protocol + "://" + n[|u.protocol| + 3..];
    SchemeNameNeedsNoPrefix(u.protocol, n[|u.protocol| + 3..], n);
    var v := parse(n).value;
    assert SameSite(v, u);
    assert |v.host| > 0 by {
      assert |LowerAscii(v.host)| == |LowerAscii(u.host)|;
    }
    assert NormalizeUrl(v) == n;
  }

  // ---------------------------------------------------------------------------
  // App's POST /urls

  /** Java string concatenation prints a null authority as "null". */
  function AuthorityText(a: Option<string>): string {
    match a
    case None => "null"
    case Some(s) => s
  }

  /** `uri.getProtocol() + "://" + uri.getAuthority()`. */
  function AppName(u: ParsedUrl): (r: string)
    ensures |r| >= |u.protocol| + 3 && r[..|u.protocol| + 3] == u.protocol + "://"
    ensures r[|u.protocol| + 3..] == AuthorityText(u.authority)
  {
    u.protocol + "://" + AuthorityText(u.authority)
  }

  /**
   * Under one protocol, App keys differ whenever the authorities are spelled
   * differently: host case, an explicit port or user info all count.
   */
  lemma AppNameKeepsAuthority(u: ParsedUrl, v: ParsedUrl)
    requires u.protocol == v.protocol
    ensures AppName(u) == AppName(v) <==> AuthorityText(u.authority) == AuthorityText(v.authority)
  {
    if AppName(u) == AppName(v) {
      assert AppName(u)[|u.protocol| + 3..] == AuthorityText(u.authority);
      assert AppName(v)[|v.protocol| + 3..] == AuthorityText(v.authority);
    }
  }

  /** On a lower-case host written without port or user info, the two keys coincide. */
  lemma PoliciesAgreeOnPlainHosts(u: ParsedUrl)
    requires u.authority == Some(u.host) && LowerAscii(u.host) == u.host && u.port == -1
    ensures AppName(u) == NormalizeUrl(u)
  {
  }

  /**
   * `http://Example.com:80/path` and `http://example.com`: the controller
   * gives both one name, while App keeps two.
   */
  lemma PoliciesDisagreeOnDefaultPort()
    ensures var u := ParsedUrl("http", "Example.com", 80, Some("Example.com:80"), "/path", None, None);
      var v := ParsedUrl("http", "example.com", -1, Some("example.com"), "", None, None);
      && NormalizeUrl(u) == NormalizeUrl(v)
      && AppName(u) != AppName(v)
  {
    var u := ParsedUrl("http", "Example.com", 80, Some("Example.com:80"), "/path", None, None);
    var v := ParsedUrl("http", "example.com", -1, Some("example.com"), "", None, None);
    var rest := "xample.com";
    LowerAsciiOfLower(rest);
    LowerAsciiOfLower(v.host);
    assert LowerAscii(u.host) == LowerAscii("E") + LowerAscii(rest);
    assert LowerAscii(u.host) == LowerAscii(v.host);
    assert |AppName(u)| == 21 && |AppName(v)| == 18;
  }
}

=== FILE: url_repository.dfy ===
/**
 * The `urls` table as a sequence of rows in insertion order plus the next
 * value of its identity column. Creation times come from an explicit clock
 * reading `now` instead of `System.currentTimeMillis()`.
 */
module UrlRepository {
  import opened Common
  import Sorting

  /** A `Url` object: `new Url(name)` leaves the id null and stamps its own creation time. */
  datatype Url = Url(id: Option<nat>, name: string, createdAt: Option<nat>)

  datatype UrlRow = UrlRow(id: nat, name: string, createdAt: nat)

  datatype UrlTable = UrlTable(rows: seq<UrlRow>, nextId: nat)

  /** Identity values are positive, increase with insertion, and stay below the next one. */
  predicate Valid(t: UrlTable) {
    && 1 <= t.nextId
    && (forall i :: 0 <= i < |t.rows| ==> 1 <= t.rows[i].id < t.nextId)
    && (forall i, j :: 0 <= i < j < |t.rows| ==> t.rows[i].id < t.rows[j].id)
  }

  /** No two rows share a name: what the handlers' check-then-insert is meant to keep. */
  predicate NamesUnique(t: UrlTable) {
    forall i, j :: 0 <= i < j < |t.rows| ==> t.rows[i].name != t.rows[j].name
  }

  predicate HasName(t: UrlTable, name: string) {
    exists i :: 0 <= i < |t.rows| && t.rows[i].name == name
  }

  datatype Saved = Saved(table: UrlTable, url: Url)

  /**
   * `UrlRepository.save` as written: inserts the name with the clock's time
   * and reads no generated key, so the object it was given keeps a null id.
   */
  function Save(t: UrlTable, url: Url, now: nat): (r: Saved)
    ensures |r.table.rows| == |t.rows| + 1 && r.table.rows[..|t.rows|] == t.rows
    ensures r.table.rows[|t.rows|].name == url.name
    ensures r.table.rows[|t.rows|].createdAt == now
    ensures Valid(t) ==> forall i :: 0 <= i < |t.rows| ==> t.rows[i].id != r.table.rows[|t.rows|].id
    ensures Valid(t) ==> Valid(r.table)
    ensures r.url == url
  {
    Saved(UrlTable(t.rows + [UrlRow(t.nextId, url.name, now)], t.nextId + 1), url)
  }

  /** A freshly built `Url` still has no id after `save`, although its row got one. */
  lemma SaveLeavesIdUnset(t: UrlTable, name: string, now: nat)
    ensures var saved := Save(t, Url(None, name, Some(now)), now);
      saved.url.id.None? && saved.table.rows[|t.rows|].id == t.nextId
  {
  }

  /** The same insert, reporting the generated key back into the object as `UrlCheckRepository.save` does. */
  function SaveWithGeneratedKey(t: UrlTable, url: Url, now: nat): (r: Saved)
    ensures r.table == Save(t, url, now).table
    ensures r.url.id.Some? && r.url.name == url.name
    ensures Valid(t) ==> Find(r.table, r.url.id.value) == Some(r.table.rows[|t.rows|])
  {
    var saved := Save(t, url, now);
    var id := saved.table.rows[|t.rows|].id;
    assert Valid(t) ==> Find(saved.table, id) == Some(saved.table.rows[|t.rows|]) by {
      if Valid(t) {
        FindUnique(saved.table, |t.rows|);
      }
    }
    Saved(saved.table, url.(id := Some(id)))
  }

  /** `findByName`: a row carrying exactly this name (the first in table order), or none. */
  function FindByName(t: UrlTable, name: string): (r: Option<UrlRow>)
    ensures r.Some? ==> r.value in t.rows && r.value.name == name
    ensures r.None? <==> !HasName(t, name)
  {
    match FirstIndex(t.rows, (row: UrlRow) => row.name == name)
    case None => None
    case Some(i) => Some(t.rows[i])
  }

  /** `find`: the row with this id, or none. */
  function Find(t: UrlTable, id: int): (r: Option<UrlRow>)
    ensures r.Some? ==> r.value in t.rows && r.value.id == id
    ensures r.None? <==> forall i :: 0 <= i < |t.rows| ==> t.rows[i].id != id
  {
    match FirstIndex(t.rows, (row: UrlRow) => row.id == id)
    case None => None
    case Some(i) => Some(t.rows[i])
  }

  /** The sort key of `getEntities`. */
  function RowId(row: UrlRow): int {
    row.id
  }

  /** `getEntities`: every row, `ORDER BY id DESC`. */
  function GetEntities(t: UrlTable): (r: seq<UrlRow>)
    ensures multiset(r) == multiset(t.rows)
    ensures forall i, j :: 0 <= i < j < |r| ==> r[i].id >= r[j].id
    ensures Valid(t) ==> forall i, j :: 0 <= i < j < |r| ==> r[i].id > r[j].id
  {
    var r := Sorting.SortDesc(t.rows, RowId);
    if Valid(t) then
      assert Sorting.DistinctKeys(t.rows, RowId);
      Sorting.SortDescKeepsKeysDistinct(t.rows, RowId);
      Sorting.NonIncreasingDistinctIsStrict(r, RowId);
      r
    else r
  }

  lemma FindUnique(t: UrlTable, k: nat)
    requires Valid(t) && k < |t.rows|
    ensures Find(t, t.rows[k].id) == Some(t.rows[k])
  {
    var r := Find(t, t.rows[k].id);
    var i :| 0 <= i < |t.rows| && t.rows[i] == r.value;
    if i < k {
    } else if k < i {
    }
  }

  /** After saving a name, looking it up finds a row with that name. */
  lemma SavedNameIsFound(t: UrlTable, url: Url, now: nat)
    ensures FindByName(Save(t, url, now).table, url.name).Some?
  {
    var after := Save(t, url, now).table;
    assert after.rows[|t.rows|].name == url.name;
  }

  /** Saving a name the table lacks keeps names unique. */
  lemma SaveFreshNameKeepsNamesUnique(t: UrlTable, url: Url, now: nat)
    requires NamesUnique(t) && FindByName(t, url.name).None?
    ensures NamesUnique(Save(t, url, now).table)
  {
  }

  /** A saved row is found by its id, and earlier rows are found as before. */
  lemma SaveThenFind(t: UrlTable, url: Url, now: nat, id: int)
    requires Valid(t)
    ensures var after := Save(t, url, now).table;
      Find(after, id) == if id == t.nextId then Some(UrlRow(t.nextId, url.name, now)) else Find(t, id)
  {
    var after := Save(t, url, now).table;
    if id == t.nextId {
      FindUnique(after, |t.rows|);
    } else {
      var r := Find(t, id);
      if r.Some? {
        var k :| 0 <= k < |t.rows| && t.rows[k] == r.value;
        assert Valid(after);
        FindUnique(after, k);
        FindUnique(t, k);
      }
    }
  }

  /** In a valid table, `getEntities` is the insertion order reversed: newest first. */
  lemma GetEntitiesNewestFirst(t: UrlTable)
    requires Valid(t)
    ensures GetEntities(t) == Sorting.Reverse(t.rows)
  {
    IdsIncrease(t);
    Sorting.SortIncreasingIsReverse(t.rows, RowId);
  }

  lemma IdsIncrease(t: UrlTable)
    requires Valid(t)
    ensures Sorting.StrictlyIncreasing(t.rows, RowId)
  {
  }
}
